=== FILE: README.md ===
# Optical-flow video tool: a Dafny model of its core

This project models the core of a desktop tool that turns a video into
optical-flow pictures. The tool has two modes:

- **Flow mode** compares each pair of consecutive frames with Farneback or
  DIS optical flow. Each flow field is drawn as an HSV picture. Pixels below
  a magnitude threshold are blacked out, and green arrows are drawn on a
  sampling grid.
- **FlowTrace mode** slides a window of `trace_length` grayscale frames over
  the video. Optionally it inverts the frames and subtracts the per-pixel
  median background. It then takes the per-pixel maximum and colours the
  result with a colour map.

The model has these modules:

- `Processors` covers `compute_flow` and `compute_flowtrace`. It includes a
  per-pixel reference definition of the trace and a proof that the
  array-stage pipeline computes it.
- `Stats` covers the numpy operations the trace needs: sorting, median,
  maximum and minimum.
- `Utils` covers the video metadata reader, FourCC decoding, colour-map
  lookup and the two visualisers.
- `Worker` covers `FlowProcessorThread.run` as a pure function. It takes the
  frames a capture returns after the seek and yields the emitted signals
  (`FrameReady`, `Progress`, `Error`), the number of read attempts and
  whether the capture was released. `Report`, `TraceResults` and
  `FlowResults` give an independent reference for what a run emits, and
  lemmas connect the loops to it.
- `Ui` covers the decisions the main window makes:
  - which dropped file is loaded;
  - the frame spin boxes, modelled with `QSpinBox` clamping;
  - the parameters of a run;
  - which files an export writes.
- `Base`, `Arith`, `Text`, `Images` and `Config` hold shared vocabulary.
  This includes Python's floor division and `range` length, zero-padded
  decimals and the parameter record.

OpenCV routines whose numerics are out of scope are parameters of the model
or terms of the `ColorImage` algebra:

- the optical-flow estimators (`Engine.est`);
- grayscale conversion (`Engine.gray`);
- `cartToPolar`'s magnitude (`Engine.magnitude`);
- HSV colouring, colour maps and blur.

The properties are stated about what the model emits and what it passes to
those routines.

Two behaviours of the code worth noting:

- On an exception, `FlowProcessorThread.run` emits the error without calling
  `cap.release()`. Only runs that finish release the capture (`released` in
  `Outcome`; see `Worker.RunWellFormed`).
- An unknown colour-map name does not raise. `getattr` falls back to
  `COLORMAP_HSV` (`Utils.LookupColormapByName`).

## Model

| member | source | states |
|---|---|---|
| Processors.ComputeFlow | src/processors.py:4-16 | "Farneback" calls the Farneback estimator with pyramid scale 0.5, poly_n 5, poly_sigma 1.2 and flags 0, plus the user's levels, window size and iterations; "Dense Optical Flow" calls DIS with the medium preset; any other name fails with "Unknown algorithm" |
| Processors.FarnebackSettings | src/processors.py:7-11 | the fixed Farneback arguments, with levels, window size and iterations taken from the parameters |
| Processors.ComputeFlowAcceptsOnlyFlowAlgorithms | src/processors.py:4-16 | with estimators that do not fail, flow is computed exactly for the two flow algorithm names, and "FlowTrace" is rejected as unknown |
| Processors.Stack | src/worker.py:64-65 | `np.stack` succeeds exactly when the window is non-empty and all frames share one shape, and then returns the window; otherwise it fails with numpy's message for that case |
| Processors.InvertFrame | src/processors.py:19-20 | every pixel becomes 255 minus its value, and the shape is kept |
| Processors.InvertStack | src/processors.py:19-20 | `255 - stack` keeps the window's length and frame shape, and each pixel and its inverted value sum to 255 |
| Processors.SubtractBackground | src/processors.py:21-24 | after subtracting the median and clipping, every value lies in [0, 255] and the stack keeps its shape |
| Processors.Background | src/processors.py:22 | the median background has the frame's shape, and each pixel lies between the darkest and the brightest value of its column |
| Processors.MaxProjection | src/processors.py:25 | the per-pixel maximum over the stack has the frame's shape and stays within [0, 255] |
| Processors.AsUint8 | src/processors.py:25 | `astype(np.uint8)` of values in [0, 255] is their floor, pixel by pixel |
| Processors.ComputeTrace | src/processors.py:18-26 | `compute_flowtrace` of a stackable window is an image of the frames' shape; its pixels are given by `Processors.ComputeTraceMatchesReference` |
| Processors.ComputeTraceMatchesReference | src/processors.py:18-26 | every trace pixel equals the per-pixel reference: the column maximum; or 255 minus the column minimum when inverted; either of these minus the column median, clipped, when the background is subtracted |
| Processors.PlainTraceIsBrightest | src/processors.py:25 | without inversion or background subtraction, a trace pixel is at least every frame's value there and equals one of them |
| Processors.InvertedTraceIsDarkest | src/processors.py:19-25 | with inversion alone, a trace pixel is 255 minus the darkest value at that pixel |
| Processors.IdenticalFramesSubtractToZero | src/processors.py:21-25 | with background subtraction, a window of identical frames gives an all-black trace, inverted or not |
| Processors.BlackWindowInvertsToWhite | src/processors.py:19-25 | an inverted all-black window gives an all-white trace |
| Processors.InversionPrecedesBackground | src/processors.py:19-24 | inversion happens before the median is taken: on the column [0, 0, 255], inverting then subtracting gives 0, where subtracting from the inverted maximum the original median would give 255 |
| Stats.Sort | src/processors.py:22 | the result is sorted and is a permutation of the input |
| Stats.SortedUnique | src/processors.py:22 | two sorted permutations of one multiset are equal, so the sorted order `np.median` reads is unique |
| Stats.Median | src/processors.py:22 | the median lies between the minimum and the maximum |
| Stats.MedianOfConstant | src/processors.py:22 | the median of a constant column is that constant |
| Stats.SortReflect | src/processors.py:19-22 | sorting the inverted column is reversing the inverted sorted column |
| Stats.MedianReflect | src/processors.py:19-22 | the median of `c - x` is `c` minus the median of `x` |
| Utils.CodecString | src/utils.py:13 | the codec has four characters, character `i` being byte `i` of the FOURCC value (`>> 8*i & 0xFF`) |
| Utils.FourccCode | src/ui.py:294 | `VideoWriter_fourcc` packs four 8-bit characters least significant first into a 32-bit C `int`: the code lies in [-2^31, 2^31), agrees with the unsigned packing modulo 2^32, and is negative exactly when the fourth character is 0x80 or above |
| Utils.CodecOfPackedCode | src/utils.py:13 | decoding a packed FOURCC gives back its four characters, negative codes included |
| Utils.PackedCodeOfCodec | src/utils.py:13 | packing the decoded characters gives the FOURCC value as a 32-bit `int` holds it, so a code within [-2^31, 2^31) comes back unchanged |
| Utils.Duration | src/utils.py:12 | the duration is 0 when fps is not positive, and otherwise multiplying it by fps gives the frame count |
| Utils.VideoMetadata | src/utils.py:5-16 | an unopenable video fails with "Could not open video file"; an open one yields the truncated width and height, the capture's frame rate, a duration that times the frame rate gives the frame count (0 at non-positive fps), and the four characters packed little-endian in the FOURCC |
| Utils.NamedColormapOfName | src/utils.py:45 | every OpenCV colour map is found under its `COLORMAP_` name |
| Utils.LookupColormapByName | src/utils.py:45 | a name whose upper-case form names a colour map selects it; any other name selects HSV |
| Utils.LookupColormap | src/utils.py:45 | the selected colour map is the one named by the upper-cased name, or HSV when no colour map has that name |
| Utils.LookupIgnoresCase | src/utils.py:45 | names that agree after upper-casing select the same colour map |
| Utils.GrayToBgr | src/utils.py:43 | `GRAY2BGR` copies each gray value into all three channels |
| Utils.VisualizeTrace | src/utils.py:40-49 | exactly "grayscale" gives the gray picture; any other name gives the looked-up colour map; the result is blurred exactly when smoothing is on |
| Utils.TraceColormapExamples | src/utils.py:42-46 | "Grayscale" (capitalised) is not the gray branch and falls back to HSV; "viridis" and "JET" select Viridis and Jet |
| Utils.SampleAxisMembership | src/utils.py:31-32 | `range(0, n, d)` holds exactly the multiples of `d` in [0, n) |
| Utils.SampleGridMembership | src/utils.py:31-32 | the arrow grid holds exactly the in-picture points whose both coordinates are multiples of the density |
| Utils.SampleGridSize | src/utils.py:31-32 | the grid has ceil(h/d) * ceil(w/d) points |
| Utils.ArrowsAt | src/utils.py:31-35 | an arrow is drawn from a sample point exactly when the magnitude there exceeds the threshold, and it ends at `(int(x + fx), int(y + fy))`: the sum of the point and the flow vector, truncated toward zero |
| Utils.BlackoutMask | src/utils.py:28 | a pixel is blacked out exactly when its magnitude is below the threshold |
| Utils.VisualizeFlow | src/utils.py:18-38 | a zero arrow density makes `range` raise; with a nonzero density and an arrow size in [1, 32767] the picture succeeds, and any other failure is OpenCV's thickness assertion on an arrow actually drawn; the picture is blurred exactly when smoothing is on |
| Utils.InvalidArrowSizeFailsWithArrows | src/utils.py:30-35 | with an arrow size outside [1, 32767] the picture fails exactly when the density is positive and some sample point's magnitude exceeds the threshold, so that `cv2.arrowedLine` is called |
| Utils.FlowPictureContents | src/utils.py:18-38 | the picture is the HSV coding masked below the threshold with green arrows of the given thickness, drawn at exactly the grid points above it; no arrow starts on a blacked-out pixel |
| Worker.RangeLen | src/worker.py:56 | `len(range(start, stop, step))` for either sign of step, bounded as Python defines it |
| Worker.FloorDiv | src/worker.py:55 | Python's `//` rounds toward negative infinity for either sign of divisor |
| Worker.TotalWindows | src/worker.py:55 | `total_windows` is never negative, and for a positive step it is the floor of (frames in the range minus trace length plus 1) divided by the step, 0 when that is below one step |
| Worker.TotalPairs | src/worker.py:76 | `total_pairs` is never negative, and for a positive step it is the floor of (end minus start) divided by the step, 0 when that is below one step |
| Worker.Percent | src/worker.py:71 | the progress value is the floor of done * 100 / total |
| Worker.Push | src/worker.py:61-63 | appending grows the buffer by one until it would pass the trace length, after which popping the oldest keeps its length |
| Worker.PushKeepsNewest | src/worker.py:61-63 | the pushed buffer is the newest elements of the old buffer followed by the new frame, in order |
| Worker.Buffer | src/worker.py:57-63 | after k successful reads the buffer holds min(k, trace length) frames; `Worker.BufferContents` says which |
| Worker.BufferContents | src/worker.py:57-63 | after `k` reads the buffer holds the grayscale versions of the last `min(k, L)` frames read, oldest first |
| Worker.WindowStep | src/worker.py:64-67 | the work done on a full buffer succeeds exactly when its frames share one shape, and then it is the visualised trace of the stack; otherwise it fails with `np.stack`'s message |
| Worker.FlowStep | src/worker.py:83-84 | a pair fails with the estimator's message when `compute_flow` raises, and otherwise is `visualize_flow` of the estimated field, with its failures |
| Worker.UniformWindowsStack | src/worker.py:61-65 | when all grayscale frames share one shape, every full window of the reads stacks and goes through |
| Worker.Emit | src/worker.py:68-71 | each result emits its frame and picture, then its progress when the denominator is positive |
| Worker.TraceLoop | src/worker.py:56-71 | the loop makes at most one read attempt per iteration, and a finished loop has read every frame or stopped at the first failed read |
| Worker.FlowLoop | src/worker.py:77-89 | the same bound on read attempts for flow mode |
| Worker.Drive | src/worker.py:41-92 | a trace longer than the frame range fails before any read with "Trace length exceeds selected frame range"; otherwise a zero step fails with Python's division-by-zero message; the read attempts never exceed the `range` length |
| Worker.Run | src/worker.py:41-92 | the run as written releases the capture exactly when no error is emitted, ends with any error, and never reads more frames than the range holds |
| Worker.RunWellFormed | src/worker.py:41-92 | the capture is released exactly when no error is emitted, and an error is always the last signal |
| Worker.TraceLoopWellFormed | src/worker.py:56-72 | the trace loop releases the capture exactly when it emits no error, and an error is always its last signal |
| Worker.TraceLoopFailsAfterRead | src/worker.py:56-72 | a trace loop that stops on an exception has attempted a read beyond the ones before it |
| Worker.FlowLoopWellFormed | src/worker.py:77-90 | the flow loop releases the capture exactly when it emits no error, and an error is always its last signal |
| Worker.FlowLoopFailsAfterRead | src/worker.py:77-90 | a flow loop that stops on an exception has attempted a read beyond the ones before it |
| Worker.TraceRunReports | src/worker.py:49-72 | for frames of one shape, a trace run emits, in order, one (frame, picture) pair per full window of the frames read, each picture being the visualised trace of that window, with progress against the denominator; it then releases the capture |
| Worker.FlowRunReports | src/worker.py:73-90 | when every pair succeeds, a flow run emits one (frame, picture) pair per consecutive pair of frames read, the picture being the visualised flow from the previous frame, and releases the capture |
| Worker.UnknownAlgorithmFailsFirstPair | src/worker.py:82-84 | with an unknown algorithm name, the run reads two frames, emits only "Unknown algorithm" and does not release the capture |
| Worker.ReportAppend | src/worker.py:68-71 | the signals for two batches of results are those of the first followed by those of the second, numbered on |
| Worker.ProgressOfReport | src/worker.py:69-71 | the progress values of a report are the percentages of 1, 2, … results, or none when the denominator is not positive |
| Worker.PercentMonotone | src/worker.py:71 | progress never decreases as results accumulate |
| Worker.ReportReachesHundred | src/worker.py:69-71 | reporting as many results as the denominator gives one progress value per result, each in [0, 100], non-decreasing and ending at 100 |
| Worker.ProgressSeriesComplete | src/worker.py:71 | counting up to the denominator gives values in [0, 100], non-decreasing, ending at 100 |
| Worker.FlowPairsMatchTotal | src/worker.py:76-77 | for a positive step, `total_pairs` equals the number of pairs the loop visits |
| Worker.FlowProgressReachesHundred | src/worker.py:76-88 | when all frames can be read, a flow run reports `total_pairs` progress values, each in [0, 100], non-decreasing and ending at 100 |
| Worker.TotalWindowsStepOne | src/worker.py:55 | for step 1, `total_windows` is the number of windows the loop emits |
| Worker.TraceProgressOvershoots | src/worker.py:55-71 | as written, start 0, end 2, step 2 and trace length 1 give `total_windows` 1 but progress 100 then 200 |
| Worker.CorrectedTraceProgressReachesHundred | src/worker.py:55-71 | with the denominator counted over the frames the loop visits, trace progress stays in [0, 100], never decreases and ends at 100 |
| Worker.DenominatorExamples | src/worker.py:55 | frames 0-9 with trace length 5 give six windows, and steps 1 over frames 0-9 give nine pairs |
| Ui.HasVideoExtension | src/ui.py:185 | a path with a video extension has at least four characters, the fourth from last being the dot |
| Ui.AcceptDrop | src/ui.py:183-186 | only the first dropped file is considered, and it is loaded exactly when it has a video extension |
| Ui.VideoExtensionIsLastFour | src/ui.py:185 | a path is a video exactly when its last four characters, lower-cased, are .mp4, .avi, .mov or .mkv |
| Ui.DropExamples | src/ui.py:183-186 | "CLIP.MP4" is accepted; a drop whose first file is a text file, or an empty drop, loads nothing |
| Ui.SetValue | src/ui.py:203 | the spin box takes the legal value nearest to the one requested |
| Ui.SetRange | src/ui.py:201-202 | the new range is [lo, max(lo, hi)], and a value already inside it is kept |
| Ui.InitialControls | src/ui.py:63-117 | the constructed widgets satisfy the widget invariant |
| Ui.LoadVideo | src/ui.py:199-203 | loading a video changes only the two frame boxes and keeps the widget invariant |
| Ui.LoadedRangesCoverVideo | src/ui.py:199-203 | after loading a video of at least one frame, both boxes range over [0, total - 1] and the end box is set to the last frame; with no frames, both are fixed at 0 |
| Ui.ToggleEntire | src/ui.py:233-238 | unchecking changes nothing; checking moves only the two frame boxes and keeps the invariant |
| Ui.EntireVideoAfterLoad | src/ui.py:233-238 | once a video is loaded, "Process Entire Video" selects frames 0 to total - 1 |
| Ui.MagThreshold | src/ui.py:102-104 | the threshold lies in [0, 1], and 100 times the threshold is the slider position |
| Ui.StartProcessing | src/ui.py:240-260 | without a video it refuses with "No video loaded"; otherwise each parameter (algorithm, window size, pyramid levels, iterations, threshold scaled from the slider, colour map, arrow density and size, smoothing, frame range, step, inversion, background subtraction) is the value of its widget |
| Ui.WidgetParamsAreSafe | src/ui.py:240-260 | parameters read off the widgets have step, trace length and arrow density at least 1, an arrow size in [1, 32767], a threshold in [0, 1], an algorithm the worker dispatches and a colour map that is grayscale, HSV, Jet or Viridis |
| Ui.WidgetRunsAvoidSettingErrors | src/ui.py:240-261 | a run started from the widgets never stops on the zero-step error: a run that fails before any read failed only because the trace was too long, and no flow picture fails for the arrow density or the arrow size |
| Ui.WithSuffix | src/ui.py:291-292 | the path ends with the suffix, is unchanged if it already did, and otherwise only has the suffix appended |
| Ui.WithSuffixIdempotent | src/ui.py:310-311 | normalising an export path twice is normalising it once |
| Ui.WithSuffixIsCaseSensitive | src/ui.py:291-292 | "clip.MP4" is saved as "clip.MP4.mp4", and "clip.mp4" is kept |
| Ui.FrameFileName | src/ui.py:305 | every image name starts with `frame_`, ends with `.png` and has at least 14 characters, exactly 14 below index 10000 |
| Ui.FrameFileNameRoundTrip | src/ui.py:305 | the index is read back from its `frame_{i:04d}.png` name |
| Ui.FrameFileNames | src/ui.py:305 | different results get different names, and a name has 14 characters below index 10000 and more from then on |
| Ui.Export | src/ui.py:281-313 | without results the export refuses with "No processed results to export"; a cancelled dialog writes nothing; a video is written with the "mp4v" code at the loaded frame rate or 30 to the chosen path with `.mp4` appended unless present, an array to the path with `.npy` appended unless present, and images into the chosen directory named `frame_`, the index padded to four digits and `.png`, one per result |
| Ui.ExportedVideoCodec | src/ui.py:294-295 | the exported video's FOURCC decodes as "mp4v", and its frame rate is the loaded video's or 30 |

## Left out

- Qt itself is not modelled: widgets, layouts, signals, threads, message boxes and file dialogs. Dialog answers are parameters of `Ui.Export`. Signals are the `Event` sequence of an `Outcome`.
- Widget visibility (`update_params_visibility`), previews, playback, seeking and `display_image` are left out. They change what is shown, not what is computed.
- `VideoLoaderThread` (src/worker.py:7-29) is left out. The window imports it but never starts it; `Utils.VideoMetadata` models the reader the window uses.
- The entry point in src/main.py is not part of this model.
- OpenCV's numerical routines are uninterpreted parameters or terms of the picture algebra:
  - the Farneback and DIS estimators;
  - `cvtColor` to gray;
  - `cartToPolar`, `normalize` and the HSV hue scaling;
  - `applyColorMap`, `GaussianBlur` and the pixels `arrowedLine` draws.
  Their arithmetic is floating point and library-defined.
- The shape argument of both visualisers is ignored, as it is in the code apart from `np.zeros`. The HSV picture takes the field's shape.
- Utils.ArrowsAt: adds the flow vector to the point exactly before truncating. The code adds a float32 flow component to the coordinate in floating point, which can round: x = 16 and fx = -1e-8 give 16.0 and an end at 16, where the exact sum truncates to 15.
- Worker.Percent: uses exact rational arithmetic for `int((processed / total) * 100)`. Python's float evaluation can give one less, for example 29 of 100 gives 28.
- Ui.MagThreshold: the threshold is the exact rational `slider / 100` rather than the nearest double.
- Utils.Duration: the duration is the exact quotient rather than a double.
- Text.Lower and Text.Upper map only ASCII letters, whereas Python's `str.lower`/`str.upper` also map other letters. A dropped path with non-ASCII letters can be judged differently: Python lower-cases ".m" followed by KELVIN SIGN (U+212A) and "v" to ".mkv" and accepts it, while the model rejects it.
- Utils.LookupColormapByName: upper-cases ASCII letters only. Python's `str.upper` turns "ſpring" (with U+017F) into "SPRING" and "vırıdıs" (with U+0131) into "VIRIDIS", so `getattr` finds those maps where the model falls back to HSV. The names the window's colour-map box offers ("hsv", "jet", "viridis", "grayscale") are ASCII, so runs started from the window are unaffected.
- `total_frames` in `FlowProcessorThread.run` is read but never used. The seek to `start` is modelled by giving the run the frames the capture returns from there on.
- Worker.TraceRunReports: assumes all grayscale frames share one shape (`Uniform`). A video whose frames change size makes `np.stack` fail, which only `Worker.RunWellFormed` covers.
- Worker.FlowRunReports: assumes every pair succeeds. A failing estimator is covered by `Worker.RunWellFormed` and `Worker.UnknownAlgorithmFailsFirstPair`.
- Worker.FlowProgressReachesHundred: assumes every pair succeeds and a frame is read for every iteration. A video that ends early stops the loop, and progress then stays below 100, as in the code.
- Worker.CorrectedTraceProgressReachesHundred: assumes the frames share one shape and a frame is read for every iteration, for the same reasons.
- Ui.LoadVideo: models only a successful load. When reading the metadata raises, the code has already stored the path and leaves the spin boxes alone; that path is not modelled.
- The text of OpenCV's thickness error starts with OpenCV's version and the path of its source file; the model keeps only the assertion that follows (`Utils.ThicknessMessage`).
- Ui.Export: the writer's frame size, `os.path.join`, the success messages, and a failure of `np.stack` on pictures of different shapes are left out.
- A `Ui.SpinBox` keeps its upper bound at Qt's default of 99 unless a range is set, as `QSpinBox(value=…, minimum=…)` does.

## Findings

| source | as written | input that shows it | evidently intended | confidence | as-written member | corrected member |
|---|---|---|---|---|---|---|
| src/worker.py:55-71 | `total_windows = max(0, ((end - start + 1) - trace_length + 1) // step)` divides the window count by the step, but the loop emits one window per iteration once the buffer is full, so with a step above 1 it emits more windows than `total_windows` | start 0, end 2, step 2, trace length 1: `total_windows` is 1, the loop iterates twice (i = 0, 2), reads frames 0 and 1 and emits two windows, and progress reads 100 then 200 | the denominator is the number of windows emitted, `max(0, len(range(start, end + 1, step)) - trace_length + 1)`, so that progress ends at exactly 100 | not executed | Worker.TraceProgressOvershoots | Worker.CorrectedTraceProgressReachesHundred |

=== FILE: arith.dfy ===
/** Facts about multiplication and floor division by a positive divisor,
    proved step by step so that each one stays linear for the solver. */
module Arith {

  lemma MulGe(k: int, d: int)
    requires k >= 1 && d > 0
    ensures k * d >= d
  {
  }

  lemma MulMono(x: int, y: int, d: int)
    requires x <= y && d > 0
    ensures x * d <= y * d
  {
    if x < y {
      MulGe(y - x, d);
      assert y * d - x * d == (y - x) * d;
    }
  }

  /** Quotient and remainder are determined by the division equation. */
  lemma DivUnique(a: int, d: int, q: int, r: int)
    requires d > 0 && 0 <= r < d && a == q * d + r
    ensures a / d == q && a % d == r
  {
    var q' := a / d;
    var r' := a % d;
    assert a == q' * d + r';
    if q' > q {
      assert q' * d - q * d == (q' - q) * d;
      MulGe(q' - q, d);
    } else if q' < q {
      assert q * d - q' * d == (q - q') * d;
      MulGe(q - q', d);
    }
  }

  lemma DivMonotone(a: int, b: int, d: int)
    requires d > 0 && a <= b
    ensures a / d <= b / d
  {
    var qa, qb := a / d, b / d;
    assert a == qa * d + a % d;
    assert b == qb * d + b % d;
    if qa > qb {
      assert qa * d - qb * d == (qa - qb) * d;
      MulGe(qa - qb, d);
    }
  }

  /** `q <= a / d` exactly when `q * d <= a`. */
  lemma LeDiv(q: int, a: int, d: int)
    requires d > 0
    ensures q <= a / d <==> q * d <= a
  {
    assert a == (a / d) * d + a % d;
    if q <= a / d {
      MulMono(q, a / d, d);
    }
    if q * d <= a {
      DivMonotone(q * d, a, d);
      DivUnique(q * d, d, q, 0);
    }
  }

  /** Dividing by `b` and then by `c` is dividing by `b * c`. */
  lemma DivNested(a: int, b: int, c: int)
    requires b > 0 && c > 0
    ensures b * c > 0
    ensures a / (b * c) == (a / b) / c
  {
    MulGe(b, c);
    var q := a / b;
    var r := a % b;
    var q2 := q / c;
    var r2 := q % c;
    assert a == q * b + r;
    assert q == q2 * c + r2;
    assert q * b == q2 * (b * c) + r2 * b by {
      assert q * b == (q2 * c + r2) * b;
    }
    assert r2 * b <= (c - 1) * b by { MulMono(r2, c - 1, b); }
    assert (c - 1) * b == b * c - b;
    assert 0 <= r2 * b by {
      if r2 > 0 { MulGe(r2, b); }
    }
    DivUnique(a, b * c, q2, r2 * b + r);
  }
}

=== FILE: base.dfy ===
/** Shared vocabulary: 8-bit values, optional values and results that carry
    the message of the exception the program would raise. */
module Base {

  /** An 8-bit unsigned value, the element type of the program's grayscale frames. */
  type Byte = x: int | 0 <= x < 256

  datatype Option<+T> = None | Some(value: T)

  /** A value, or the text an exception would carry (Python's `str(e)`). */
  datatype Result<+T> = Success(value: T) | Failure(message: string)

  function MinInt(a: int, b: int): int { if a <= b then a else b }

  function MaxInt(a: int, b: int): int { if a >= b then a else b }

  /** `v` limited to `[lo, hi]`, as `np.clip` does. */
  function ClipReal(v: real, lo: real, hi: real): (r: real)
    requires lo <= hi
    ensures lo <= r <= hi
    ensures lo <= v <= hi ==> r == v
    ensures v < lo ==> r == lo
    ensures v > hi ==> r == hi
  {
    if v < lo then lo else if v > hi then hi else v
  }

  /** Python's `int(x)` on a float: truncation toward zero. */
  function TruncReal(x: real): (r: int)
    ensures x >= 0.0 ==> r as real <= x < r as real + 1.0
    ensures x < 0.0 ==> r as real - 1.0 < x <= r as real
  {
    if x >= 0.0 then x.Floor else -((-x).Floor)
  }
}

=== FILE: config.dfy ===
/** The parameter record one processing run receives. */
module Config {

  /** Every knob the main window collects before starting a run. The
      algorithm and colour map are the combo boxes' texts, dispatched on by
      string comparison. */
  datatype Params = Params(
    algorithm: string,
    winSize: int,        // flow window size, or the trace length in trace mode
    pyrLevels: int,
    iterations: int,
    magThreshold: real,
    cmap: string,
    arrowDensity: int,
    arrowSize: int,
    smooth: bool,
    startFrame: int,
    endFrame: int,
    step: int,
    invert: bool,
    bgSubtract: bool)

  const FlowTraceName := "FlowTrace"
  const FarnebackName := "Farneback"
  const DenseFlowName := "Dense Optical Flow"
}

=== FILE: images.dfy ===
/** Frames, flow fields and rendered pictures.

    Grayscale frames and flow fields are explicit rectangular grids. A colour
    picture produced by an OpenCV drawing or colouring routine that this model
    does not interpret is kept as a term naming the routine and its inputs, so
    that the order and arguments of the calls remain observable. */
module Images {
  import opened Base

  /** The width of a grid: the length of its first row (0 for no rows). */
  function Width<T>(g: seq<seq<T>>): nat
  {
    if |g| == 0 then 0 else |g[0]|
  }

  /** Every row has the same length, as in a 2-D array. */
  predicate Rectangular<T>(g: seq<seq<T>>)
  {
    forall y :: 0 <= y < |g| ==> |g[y]| == Width(g)
  }

  predicate HasShape<T>(g: seq<seq<T>>, h: nat, w: nat)
  {
    |g| == h && forall y :: 0 <= y < h ==> |g[y]| == w
  }

  /** A single-channel 8-bit frame (`uint8` array of shape `(h, w)`). */
  type Image = g: seq<seq<Byte>> | Rectangular(g) witness []

  /** One displacement vector of a dense flow field. */
  datatype Vec = Vec(dx: real, dy: real)

  /** A dense flow field (array of shape `(h, w, 2)`). */
  type Field = g: seq<seq<Vec>> | Rectangular(g) witness []

  /** One 3-channel pixel in OpenCV's blue-green-red order. */
  datatype Pixel = Pixel(b: Byte, g: Byte, r: Byte)

  /** The `COLORMAP_*` constants of OpenCV 4. */
  datatype Colormap =
    | Autumn | Bone | Jet | Winter | Rainbow | Ocean | Summer | Spring | Cool | Hsv
    | Pink | Hot | Parula | Magma | Inferno | Plasma | Viridis | Cividis
    | Twilight | TwilightShifted | Turbo | Deepgreen

  /** A call of `cv2.arrowedLine` from `(x0, y0)` to `(x1, y1)`. */
  datatype Arrow = Arrow(x0: int, y0: int, x1: int, y1: int, color: Pixel, thickness: int)

  /** A colour picture: explicit pixels, or the result of an OpenCV routine applied to its inputs. */
  datatype ColorImage =
    | Pixels(rows: seq<seq<Pixel>>)                  // explicit pixels
    | ColorMapped(source: Image, colormap: Colormap) // cv2.applyColorMap
    | FlowHsv(field: Field)                          // polar HSV coding of a field, converted to BGR
    | Blackout(base: ColorImage, mask: seq<seq<bool>>) // masked pixels set to 0
    | WithArrows(base: ColorImage, arrows: seq<Arrow>) // arrows drawn in order
    | Blurred(base: ColorImage)                      // cv2.GaussianBlur, 5x5 kernel, sigma 0
}

=== FILE: processors.dfy ===
/** The two numeric algorithms behind one run: the flow selector, whose
    estimators are OpenCV routines taken as parameters, and the trace
    reduction of a window of grayscale frames (invert, subtract the
    per-pixel median background, clip, project the maximum). */
module Processors {
  import opened Base
  import opened Stats
  import opened Images
  import opened Config

  // ---------------------------------------------------------------------
  // Flow selector

  const UnknownAlgorithm := "Unknown algorithm"

  /** The keyword arguments of `cv2.calcOpticalFlowFarneback`. */
  datatype FarnebackArgs = FarnebackArgs(
    pyrScale: real, levels: int, winSize: int, iterations: int,
    polyN: int, polySigma: real, flags: int)

  /** The presets of `cv2.DISOpticalFlow.create`. */
  datatype DisPreset = Ultrafast | Fast | Medium

  /** The two dense-flow estimators of OpenCV. Either may raise, so each
      yields a field or the message of its exception. */
  datatype Estimators = Estimators(
    farneback: (Image, Image, FarnebackArgs) -> Result<Field>,
    dis: (Image, Image, DisPreset) -> Result<Field>)

  predicate IsFlowAlgorithm(name: string)
  {
    name == FarnebackName || name == DenseFlowName
  }

  /** Farneback with the fixed pyramid scale, neighbourhood and smoothing,
      and the caller's levels, window size and iteration count. */
  function FarnebackSettings(p: Params): (a: FarnebackArgs)
    ensures a.pyrScale == 0.5 && a.polyN == 5 && a.polySigma == 1.2 && a.flags == 0
    ensures a.levels == p.pyrLevels && a.winSize == p.winSize && a.iterations == p.iterations
  {
    FarnebackArgs(0.5, p.pyrLevels, p.winSize, p.iterations, 5, 1.2, 0)
  }

  /** `compute_flow`: dispatches on the algorithm name; any other name raises. */
  function ComputeFlow(prev: Image, next: Image, p: Params, est: Estimators): (r: Result<Field>)
    ensures !IsFlowAlgorithm(p.algorithm) ==> r == Failure(UnknownAlgorithm)
    ensures p.algorithm == FarnebackName ==> r == est.farneback(prev, next, FarnebackSettings(p))
    ensures p.algorithm == DenseFlowName ==> r == est.dis(prev, next, Medium)
  {
    if p.algorithm == FarnebackName then est.farneback(prev, next, FarnebackSettings(p))
    else if p.algorithm == DenseFlowName then est.dis(prev, next, Medium)
    else Failure(UnknownAlgorithm)
  }

  /** Estimators that never raise. */
  ghost predicate NeverFail(est: Estimators)
  {
    (forall a: Image, b: Image, s: FarnebackArgs :: est.farneback(a, b, s).Success?) &&
    (forall a: Image, b: Image, d: DisPreset :: est.dis(a, b, d).Success?)
  }

  /** With estimators that do not raise, the selector succeeds exactly for
      the two flow algorithms; "FlowTrace" is not one of them. */
  lemma ComputeFlowAcceptsOnlyFlowAlgorithms(prev: Image, next: Image, p: Params, est: Estimators)
    requires NeverFail(est)
    ensures ComputeFlow(prev, next, p, est).Success? <==> IsFlowAlgorithm(p.algorithm)
    ensures p.algorithm == FlowTraceName ==> ComputeFlow(prev, next, p, est) == Failure(UnknownAlgorithm)
  {
  }

  // ---------------------------------------------------------------------
  // Stacking a window

  const NoArraysMessage := "need at least one array to stack"
  const ShapeMismatchMessage := "all input arrays must have the same shape"

  /** All frames of a non-empty window have the first frame's shape. */
  predicate SameShape(window: seq<Image>)
  {
    |window| > 0 &&
    forall t :: 0 <= t < |window| ==> |window[t]| == |window[0]| && Width(window[t]) == Width(window[0])
  }

  /** `np.stack(frames, axis=0)`: the frames as one 3-D array, or the error
      numpy raises for an empty list or for frames of different shapes. */
  function Stack(window: seq<Image>): (r: Result<seq<Image>>)
    ensures r.Success? <==> SameShape(window)
    ensures r.Success? ==> r.value == window
    ensures |window| == 0 ==> r == Failure(NoArraysMessage)
    ensures |window| > 0 && !SameShape(window) ==> r == Failure(ShapeMismatchMessage)
  {
    if |window| == 0 then Failure(NoArraysMessage)
    else if !SameShape(window) then Failure(ShapeMismatchMessage)
    else Success(window)
  }

  /** The values of pixel `(y, x)` along the window axis. */
  function Column(window: seq<Image>, y: int, x: int): (c: seq<int>)
    requires SameShape(window)
    requires 0 <= y < |window[0]| && 0 <= x < Width(window[0])
    ensures |c| == |window|
    ensures forall t :: 0 <= t < |window| ==> 0 <= c[t] < 256
  {
    seq(|window|, t requires 0 <= t < |window| => window[t][y][x] as int)
  }

  // ---------------------------------------------------------------------
  // The trace stages, on whole stacks as the source applies them

  /** A stack of real-valued frames of shape `(|s|, h, w)`. */
  predicate RealStack(s: seq<seq<seq<real>>>, h: nat, w: nat)
  {
    forall t :: 0 <= t < |s| ==> HasShape(s[t], h, w)
  }

  predicate InByteRange(s: seq<seq<seq<real>>>, h: nat, w: nat)
    requires RealStack(s, h, w)
  {
    forall t, y, x :: 0 <= t < |s| && 0 <= y < h && 0 <= x < w ==> 0.0 <= s[t][y][x] <= 255.0
  }

  /** `255 - v` for every pixel of one frame. */
  function InvertFrame(img: Image): (r: Image)
    ensures |r| == |img| && Width(r) == Width(img)
    ensures forall y, x :: 0 <= y < |img| && 0 <= x < Width(img) ==> r[y][x] == 255 - img[y][x]
  {
    var w := Width(img);
    seq(|img|, y requires 0 <= y < |img| => seq(w, x requires 0 <= x < w => 255 - img[y][x]))
  }

  /** `255 - stack`. */
  function InvertStack(window: seq<Image>): (r: seq<Image>)
    requires SameShape(window)
    ensures |r| == |window| && SameShape(r)
    ensures |r[0]| == |window[0]| && Width(r[0]) == Width(window[0])
    ensures forall t, y, x :: 0 <= t < |window| && 0 <= y < |window[0]| && 0 <= x < Width(window[0]) ==>
      r[t][y][x] as int + window[t][y][x] as int == 255
  {
    seq(|window|, t requires 0 <= t < |window| => InvertFrame(window[t]))
  }

  /** `np.median(stack, axis=0)`: the per-pixel background estimate. */
  function Background(window: seq<Image>): (bg: seq<seq<real>>)
    requires SameShape(window)
    ensures HasShape(bg, |window[0]|, Width(window[0]))
    ensures forall y, x :: 0 <= y < |window[0]| && 0 <= x < Width(window[0]) ==>
      SeqMin(Column(window, y, x)) as real <= bg[y][x] <= SeqMax(Column(window, y, x)) as real
  {
    var h, w := |window[0]|, Width(window[0]);
    seq(h, y requires 0 <= y < h => seq(w, x requires 0 <= x < w => Median(Column(window, y, x))))
  }

  /** `np.clip(stack - bg, 0, 255)`, in floating point. */
  function SubtractBackground(window: seq<Image>, bg: seq<seq<real>>): (r: seq<seq<seq<real>>>)
    requires SameShape(window)
    requires HasShape(bg, |window[0]|, Width(window[0]))
    ensures |r| == |window| && RealStack(r, |window[0]|, Width(window[0]))
    ensures InByteRange(r, |window[0]|, Width(window[0]))
  {
    var h, w := |window[0]|, Width(window[0]);
    seq(|window|, t requires 0 <= t < |window| => SubtractFrame(window[t], bg, h, w))
  }

  /** One frame of `np.clip(stack - bg, 0, 255)`. */
  function SubtractFrame(img: Image, bg: seq<seq<real>>, h: nat, w: nat): (r: seq<seq<real>>)
    requires |img| == h && Width(img) == w && HasShape(bg, h, w)
    ensures HasShape(r, h, w)
    ensures forall y, x :: 0 <= y < h && 0 <= x < w ==> 0.0 <= r[y][x] <= 255.0
  {
    seq(h, y requires 0 <= y < h =>
      seq(w, x requires 0 <= x < w => ClipReal(img[y][x] as real - bg[y][x], 0.0, 255.0)))
  }

  /** An unmodified `uint8` stack read as numbers. */
  function AsReals(window: seq<Image>): (r: seq<seq<seq<real>>>)
    requires SameShape(window)
    ensures |r| == |window| && RealStack(r, |window[0]|, Width(window[0]))
    ensures InByteRange(r, |window[0]|, Width(window[0]))
  {
    var h, w := |window[0]|, Width(window[0]);
    seq(|window|, t requires 0 <= t < |window| =>
      seq(h, y requires 0 <= y < h =>
        seq(w, x requires 0 <= x < w => window[t][y][x] as real)))
  }

  /** The values of pixel `(y, x)` along the axis of a real stack. */
  function RealColumn(s: seq<seq<seq<real>>>, h: nat, w: nat, y: int, x: int): (c: seq<real>)
    requires RealStack(s, h, w) && 0 <= y < h && 0 <= x < w
    ensures |c| == |s|
  {
    seq(|s|, t requires 0 <= t < |s| => s[t][y][x])
  }

  /** `np.max(stack, axis=0)`. */
  function MaxProjection(s: seq<seq<seq<real>>>, h: nat, w: nat): (m: seq<seq<real>>)
    requires |s| > 0 && RealStack(s, h, w) && InByteRange(s, h, w)
    ensures HasShape(m, h, w)
    ensures forall y, x :: 0 <= y < h && 0 <= x < w ==> 0.0 <= m[y][x] <= 255.0
  {
    seq(h, y requires 0 <= y < h => seq(w, x requires 0 <= x < w =>
      var c := RealColumn(s, h, w, y, x);
      assert 0.0 <= c[0] <= RealMax(c);
      assert exists t :: 0 <= t < |c| && c[t] == RealMax(c);
      RealMax(c)))
  }

  /** `.astype(np.uint8)` of values already in `[0, 255]`: truncation. */
  function AsUint8(m: seq<seq<real>>, h: nat, w: nat): (r: Image)
    requires HasShape(m, h, w)
    requires forall y, x :: 0 <= y < h && 0 <= x < w ==> 0.0 <= m[y][x] <= 255.0
    ensures |r| == h && Width(r) == (if h == 0 then 0 else w)
    ensures forall y, x :: 0 <= y < h && 0 <= x < w ==> r[y][x] == m[y][x].Floor
  {
    seq(h, y requires 0 <= y < h => seq(w, x requires 0 <= x < w => m[y][x].Floor as Byte))
  }

  /** `compute_flowtrace`: invert if asked, then subtract the median
      background if asked, then project the maximum along the window. */
  function ComputeTrace(window: seq<Image>, invert: bool, bgSubtract: bool): (r: Image)
    requires SameShape(window)
    ensures |r| == |window[0]| && (|r| == 0 || Width(r) == Width(window[0]))
  {
    var h, w := |window[0]|, Width(window[0]);
    var s := if invert then InvertStack(window) else window;
    var vals := if bgSubtract then SubtractBackground(s, Background(s)) else AsReals(s);
    AsUint8(MaxProjection(vals, h, w), h, w)
  }

  // ---------------------------------------------------------------------
  // A per-pixel reference for the trace

  /** What one trace pixel is, in terms of the frames' values there: the
      maximum (or 255 minus the minimum when inverted), and with background
      subtraction the distance from the median to the maximum (or, inverted,
      from the minimum to the median). */
  function TraceReference(col: seq<int>, invert: bool, bgSubtract: bool): int
    requires |col| > 0
  {
    if !bgSubtract then (if invert then 255 - SeqMin(col) else SeqMax(col))
    else if invert then (Median(col) - SeqMin(col) as real).Floor
    else (SeqMax(col) as real - Median(col)).Floor
  }

  lemma RealMaxOfInts(c: seq<int>, r: seq<real>)
    requires |c| > 0 && |r| == |c|
    requires forall t :: 0 <= t < |c| ==> r[t] == c[t] as real
    ensures RealMax(r) == SeqMax(c) as real
  {
    var i :| 0 <= i < |c| && c[i] == SeqMax(c);
    assert r[i] == SeqMax(c) as real;
    RealMaxUnique(r, SeqMax(c) as real);
  }

  /** Clipping the distance to `m` commutes with taking the maximum, and
      leaves it unclipped when `m` lies between the extremes. */
  lemma RealMaxOfClippedDifference(c: seq<int>, m: real, r: seq<real>)
    requires |c| > 0 && |r| == |c|
    requires forall t :: 0 <= t < |c| ==> 0 <= c[t] < 256
    requires SeqMin(c) as real <= m <= SeqMax(c) as real
    requires forall t :: 0 <= t < |c| ==> r[t] == ClipReal(c[t] as real - m, 0.0, 255.0)
    ensures RealMax(r) == SeqMax(c) as real - m
  {
    var i :| 0 <= i < |c| && c[i] == SeqMax(c);
    var j :| 0 <= j < |c| && c[j] == SeqMin(c);
    assert 0 <= c[j];
    assert r[i] == SeqMax(c) as real - m;
    forall t | 0 <= t < |c|
      ensures r[t] <= SeqMax(c) as real - m
    {
      assert c[t] <= SeqMax(c);
    }
    RealMaxUnique(r, SeqMax(c) as real - m);
  }

  lemma SeqMaxOfReflect(c: seq<int>)
    requires |c| > 0
    ensures SeqMax(Reflect(c, 255)) == 255 - SeqMin(c)
  {
    var j :| 0 <= j < |c| && c[j] == SeqMin(c);
    assert Reflect(c, 255)[j] == 255 - SeqMin(c);
    SeqMaxUnique(Reflect(c, 255), 255 - SeqMin(c));
  }

  lemma SeqMinOfReflect(c: seq<int>)
    requires |c| > 0
    ensures SeqMin(Reflect(c, 255)) == 255 - SeqMax(c)
  {
    var i :| 0 <= i < |c| && c[i] == SeqMax(c);
    var r := Reflect(c, 255);
    var k :| 0 <= k < |r| && r[k] == SeqMin(r);
    assert r[i] == 255 - SeqMax(c);
    assert SeqMin(r) <= 255 - SeqMax(c);
    assert c[k] <= SeqMax(c);
  }

  lemma InvertedColumn(window: seq<Image>, y: int, x: int)
    requires SameShape(window)
    requires 0 <= y < |window[0]| && 0 <= x < Width(window[0])
    ensures Column(InvertStack(window), y, x) == Reflect(Column(window, y, x), 255)
  {
    var inv := InvertStack(window);
    forall t | 0 <= t < |window|
      ensures Column(inv, y, x)[t] == Reflect(Column(window, y, x), 255)[t]
    {
      assert inv[t] == InvertFrame(window[t]);
    }
  }

  /** A pixel of the maximum projection is the largest value along its column. */
  lemma MaxProjectionAt(s: seq<seq<seq<real>>>, h: nat, w: nat, y: int, x: int)
    requires |s| > 0 && RealStack(s, h, w) && InByteRange(s, h, w)
    requires 0 <= y < h && 0 <= x < w
    ensures MaxProjection(s, h, w)[y][x] == RealMax(RealColumn(s, h, w, y, x))
  {
  }

  lemma BackgroundAt(s: seq<Image>, y: int, x: int)
    requires SameShape(s)
    requires 0 <= y < |s[0]| && 0 <= x < Width(s[0])
    ensures Background(s)[y][x] == Median(Column(s, y, x))
  {
  }

  lemma SubtractedAt(s: seq<Image>, bg: seq<seq<real>>, t: int, y: int, x: int)
    requires SameShape(s) && HasShape(bg, |s[0]|, Width(s[0]))
    requires 0 <= t < |s| && 0 <= y < |s[0]| && 0 <= x < Width(s[0])
    ensures SubtractBackground(s, bg)[t][y][x] == ClipReal(s[t][y][x] as real - bg[y][x], 0.0, 255.0)
  {
  }

  /** A column of the background-subtracted stack holds each frame's value
      minus the median, clipped to the byte range. */
  lemma SubtractedColumn(s: seq<Image>, y: int, x: int)
    requires SameShape(s)
    requires 0 <= y < |s[0]| && 0 <= x < Width(s[0])
    ensures var vals := SubtractBackground(s, Background(s));
      var c := Column(s, y, x);
      forall t :: 0 <= t < |s| ==>
        RealColumn(vals, |s[0]|, Width(s[0]), y, x)[t] == ClipReal(c[t] as real - Median(c), 0.0, 255.0)
  {
    var bg := Background(s);
    var vals := SubtractBackground(s, bg);
    var c := Column(s, y, x);
    var r := RealColumn(vals, |s[0]|, Width(s[0]), y, x);
    BackgroundAt(s, y, x);
    forall t | 0 <= t < |s|
      ensures r[t] == ClipReal(c[t] as real - Median(c), 0.0, 255.0)
    {
      SubtractedAt(s, bg, t, y, x);
    }
  }

  /** With background subtraction, the projected pixel is the maximum minus the median. */
  lemma StagedPixelSubtracted(s: seq<Image>, y: int, x: int)
    requires SameShape(s)
    requires 0 <= y < |s[0]| && 0 <= x < Width(s[0])
    ensures MaxProjection(SubtractBackground(s, Background(s)), |s[0]|, Width(s[0]))[y][x] ==
            SeqMax(Column(s, y, x)) as real - Median(Column(s, y, x))
  {
    MaxProjectionAt(SubtractBackground(s, Background(s)), |s[0]|, Width(s[0]), y, x);
    SubtractedColumnMax(s, y, x);
  }

  /** The largest background-subtracted value of a pixel is its maximum less its median. */
  lemma SubtractedColumnMax(s: seq<Image>, y: int, x: int)
    requires SameShape(s)
    requires 0 <= y < |s[0]| && 0 <= x < Width(s[0])
    ensures RealMax(RealColumn(SubtractBackground(s, Background(s)), |s[0]|, Width(s[0]), y, x)) ==
            SeqMax(Column(s, y, x)) as real - Median(Column(s, y, x))
  {
    var c := Column(s, y, x);
    SubtractedColumn(s, y, x);
    RealMaxOfClippedDifference(c, Median(c), RealColumn(SubtractBackground(s, Background(s)), |s[0]|, Width(s[0]), y, x));
  }

  /** Without background subtraction, the projected pixel is the maximum. */
  lemma StagedPixelPlain(s: seq<Image>, y: int, x: int)
    requires SameShape(s)
    requires 0 <= y < |s[0]| && 0 <= x < Width(s[0])
    ensures MaxProjection(AsReals(s), |s[0]|, Width(s[0]))[y][x] == SeqMax(Column(s, y, x)) as real
  {
    var h, w := |s[0]|, Width(s[0]);
    var c := Column(s, y, x);
    var vals := AsReals(s);
    var r := RealColumn(vals, h, w, y, x);
    MaxProjectionAt(vals, h, w, y, x);
    forall t | 0 <= t < |c|
      ensures r[t] == c[t] as real
    {
      assert r[t] == vals[t][y][x];
    }
    RealMaxOfInts(c, r);
  }

  lemma AsUint8At(m: seq<seq<real>>, h: nat, w: nat, y: int, x: int)
    requires HasShape(m, h, w)
    requires forall y, x :: 0 <= y < h && 0 <= x < w ==> 0.0 <= m[y][x] <= 255.0
    requires 0 <= y < h && 0 <= x < w
    ensures AsUint8(m, h, w)[y][x] as int == m[y][x].Floor
  {
  }

  /** The trace pixel with neither flag: the column maximum. */
  lemma PixelPlain(window: seq<Image>, y: int, x: int)
    requires SameShape(window)
    requires 0 <= y < |window[0]| && 0 <= x < Width(window[0])
    ensures ComputeTrace(window, false, false)[y][x] == TraceReference(Column(window, y, x), false, false)
  {
    var h, w := |window[0]|, Width(window[0]);
    StagedPixelPlain(window, y, x);
    AsUint8At(MaxProjection(AsReals(window), h, w), h, w, y, x);
  }

  /** The trace pixel with background subtraction only: maximum minus median. */
  lemma PixelSubtracted(window: seq<Image>, y: int, x: int)
    requires SameShape(window)
    requires 0 <= y < |window[0]| && 0 <= x < Width(window[0])
    ensures ComputeTrace(window, false, true)[y][x] == TraceReference(Column(window, y, x), false, true)
  {
    var h, w := |window[0]|, Width(window[0]);
    StagedPixelSubtracted(window, y, x);
    AsUint8At(MaxProjection(SubtractBackground(window, Background(window)), h, w), h, w, y, x);
  }

  /** The trace pixel with inversion only: 255 minus the column minimum. */
  lemma PixelInverted(window: seq<Image>, y: int, x: int)
    requires SameShape(window)
    requires 0 <= y < |window[0]| && 0 <= x < Width(window[0])
    ensures ComputeTrace(window, true, false)[y][x] == TraceReference(Column(window, y, x), true, false)
  {
    var h, w := |window[0]|, Width(window[0]);
    var s := InvertStack(window);
    StagedPixelPlain(s, y, x);
    InvertedColumn(window, y, x);
    SeqMaxOfReflect(Column(window, y, x));
    AsUint8At(MaxProjection(AsReals(s), h, w), h, w, y, x);
  }

  /** The projected pixel of the inverted, background-subtracted stack. */
  lemma InvertedSubtractedProjection(window: seq<Image>, y: int, x: int)
    requires SameShape(window)
    requires 0 <= y < |window[0]| && 0 <= x < Width(window[0])
    ensures var s := InvertStack(window);
      MaxProjection(SubtractBackground(s, Background(s)), |window[0]|, Width(window[0]))[y][x] ==
      Median(Column(window, y, x)) - SeqMin(Column(window, y, x)) as real
  {
    var s := InvertStack(window);
    var c := Column(window, y, x);
    StagedPixelSubtracted(s, y, x);
    InvertedColumn(window, y, x);
    SeqMaxOfReflect(c);
    MedianReflect(c, 255);
  }

  /** The trace pixel with both flags: the median of the inverted column
      minus its minimum, which is the median minus the minimum of the raw column. */
  lemma PixelInvertedSubtracted(window: seq<Image>, y: int, x: int)
    requires SameShape(window)
    requires 0 <= y < |window[0]| && 0 <= x < Width(window[0])
    ensures ComputeTrace(window, true, true)[y][x] == TraceReference(Column(window, y, x), true, true)
  {
    var h, w := |window[0]|, Width(window[0]);
    var s := InvertStack(window);
    InvertedSubtractedProjection(window, y, x);
    AsUint8At(MaxProjection(SubtractBackground(s, Background(s)), h, w), h, w, y, x);
  }

  /** One pixel of `compute_flowtrace`'s output is the per-pixel reference
      applied to the frames' values there. */
  lemma PixelTrace(window: seq<Image>, invert: bool, bgSubtract: bool, y: int, x: int)
    requires SameShape(window)
    requires 0 <= y < |window[0]| && 0 <= x < Width(window[0])
    ensures ComputeTrace(window, invert, bgSubtract)[y][x] == TraceReference(Column(window, y, x), invert, bgSubtract)
  {
    if invert && bgSubtract {
      PixelInvertedSubtracted(window, y, x);
    } else if invert {
      PixelInverted(window, y, x);
    } else if bgSubtract {
      PixelSubtracted(window, y, x);
    } else {
      PixelPlain(window, y, x);
    }
  }

  /** Every pixel of `compute_flowtrace`'s output is the per-pixel reference
      applied to the frames' values at that pixel. */
  lemma ComputeTraceMatchesReference(window: seq<Image>, invert: bool, bgSubtract: bool)
    requires SameShape(window)
    ensures forall y, x :: 0 <= y < |window[0]| && 0 <= x < Width(window[0]) ==>
      ComputeTrace(window, invert, bgSubtract)[y][x] == TraceReference(Column(window, y, x), invert, bgSubtract)
  {
    forall y, x | 0 <= y < |window[0]| && 0 <= x < Width(window[0])
      ensures ComputeTrace(window, invert, bgSubtract)[y][x] == TraceReference(Column(window, y, x), invert, bgSubtract)
    {
      PixelTrace(window, invert, bgSubtract, y, x);
    }
  }

  /** Without either flag, each trace pixel is the brightest value any frame
      of the window has there. */
  lemma PlainTraceIsBrightest(window: seq<Image>, y: int, x: int)
    requires SameShape(window)
    requires 0 <= y < |window[0]| && 0 <= x < Width(window[0])
    ensures forall t :: 0 <= t < |window| ==> window[t][y][x] <= ComputeTrace(window, false, false)[y][x]
    ensures exists t :: 0 <= t < |window| && window[t][y][x] == ComputeTrace(window, false, false)[y][x]
  {
    ComputeTraceMatchesReference(window, false, false);
    var c := Column(window, y, x);
    assert forall t :: 0 <= t < |window| ==> c[t] == window[t][y][x];
  }

  /** With inversion only, each trace pixel is 255 minus the darkest value
      any frame has there. */
  lemma InvertedTraceIsDarkest(window: seq<Image>, y: int, x: int)
    requires SameShape(window)
    requires 0 <= y < |window[0]| && 0 <= x < Width(window[0])
    ensures forall t :: 0 <= t < |window| ==> 255 - window[t][y][x] <= ComputeTrace(window, true, false)[y][x]
    ensures exists t :: 0 <= t < |window| && 255 - window[t][y][x] == ComputeTrace(window, true, false)[y][x]
  {
    ComputeTraceMatchesReference(window, true, false);
    var c := Column(window, y, x);
    assert forall t :: 0 <= t < |window| ==> c[t] == window[t][y][x];
  }

  /** A constant column has its median at both extremes. */
  lemma ConstantColumnSubtractsToZero(c: seq<int>, invert: bool)
    requires |c| > 0
    requires forall t :: 0 <= t < |c| ==> c[t] == c[0]
    ensures TraceReference(c, invert, true) == 0
  {
    MedianOfConstant(c, c[0]);
    assert SeqMin(c) == c[0] && SeqMax(c) == c[0];
  }

  /** Identical frames give constant columns. */
  lemma ConstantColumn(window: seq<Image>, y: int, x: int)
    requires SameShape(window)
    requires forall t :: 0 <= t < |window| ==> window[t] == window[0]
    requires 0 <= y < |window[0]| && 0 <= x < Width(window[0])
    ensures forall t :: 0 <= t < |window| ==> Column(window, y, x)[t] == Column(window, y, x)[0]
  {
  }

  /** A window of identical frames has its median everywhere, so background
      subtraction leaves an all-zero trace, inverted or not. */
  lemma IdenticalFramesSubtractToZero(window: seq<Image>, invert: bool)
    requires SameShape(window)
    requires forall t :: 0 <= t < |window| ==> window[t] == window[0]
    ensures forall y, x :: 0 <= y < |window[0]| && 0 <= x < Width(window[0]) ==>
      ComputeTrace(window, invert, true)[y][x] == 0
  {
    forall y, x | 0 <= y < |window[0]| && 0 <= x < Width(window[0])
      ensures ComputeTrace(window, invert, true)[y][x] == 0
    {
      PixelTrace(window, invert, true, y, x);
      ConstantColumn(window, y, x);
      ConstantColumnSubtractsToZero(Column(window, y, x), invert);
    }
  }

  /** An all-black window, inverted and not background-subtracted, traces to all 255. */
  lemma BlackWindowInvertsToWhite(window: seq<Image>)
    requires SameShape(window)
    requires forall t, y, x :: 0 <= t < |window| && 0 <= y < |window[t]| && 0 <= x < |window[t][y]| ==> window[t][y][x] == 0
    ensures forall y, x :: 0 <= y < |window[0]| && 0 <= x < Width(window[0]) ==>
      ComputeTrace(window, true, false)[y][x] == 255
  {
    ComputeTraceMatchesReference(window, true, false);
    forall y, x | 0 <= y < |window[0]| && 0 <= x < Width(window[0])
      ensures TraceReference(Column(window, y, x), true, false) == 255
    {
      var c := Column(window, y, x);
      assert forall t :: 0 <= t < |c| ==> c[t] == window[t][y][x] == 0;
      var k :| 0 <= k < |c| && c[k] == SeqMin(c);
    }
  }

  lemma SortOfSample()
    ensures Sort([0, 0, 255]) == [0, 0, 255]
  {
    var c := [0, 0, 255];
    assert c[1..] == [0, 255];
    assert c[1..][1..] == [255];
    assert Sort([255]) == [255] by {
      assert [255][1..] == [];
    }
    assert Sort([0, 255]) == [0, 255] by {
      assert Insert(0, [255]) == [0, 255];
    }
    assert Insert(0, [0, 255]) == [0, 0, 255];
  }

  lemma MedianOfSample()
    ensures Median([0, 0, 255]) == 0.0
  {
    SortOfSample();
  }

  lemma MinOfSample()
    ensures SeqMin([0, 0, 255]) == 0
  {
    var c := [0, 0, 255];
    var k :| 0 <= k < |c| && c[k] == SeqMin(c);
  }

  /** Inversion happens before the background is estimated: with both flags
      the trace measures how far the median lies above the darkest value,
      which is not what estimating the background on the raw frames gives.
      The window `[0, 0, 255]` at one pixel shows the difference. */
  lemma InversionPrecedesBackground()
    ensures TraceReference([0, 0, 255], true, true) == 0
    ensures (SeqMax(Reflect([0, 0, 255], 255)) as real - Median([0, 0, 255])).Floor == 255
  {
    MedianOfSample();
    MinOfSample();
    SeqMaxOfReflect([0, 0, 255]);
  }
}

=== FILE: stats.dfy ===
/** Order statistics over the window axis: extremes, sorting and the median
    that `np.median` computes. */
module Stats {

  predicate Sorted(s: seq<int>)
  {
    forall i, j :: 0 <= i < j < |s| ==> s[i] <= s[j]
  }

  /** Inserts `x` into a sorted sequence. */
  function Insert(x: int, s: seq<int>): (r: seq<int>)
    requires Sorted(s)
    ensures Sorted(r)
    ensures multiset(r) == multiset(s) + multiset{x}
    decreases |s|
  {
    if |s| == 0 then [x]
    else if x <= s[0] then [x] + s
    else
      var rest := Insert(x, s[1..]);
      assert s == [s[0]] + s[1..];
      InsertStep(s[0], x, s[1..], rest);
      [s[0]] + rest
  }

  /** Putting `lo` in front of `x` inserted into the tail keeps the order and the elements. */
  lemma InsertStep(lo: int, x: int, s: seq<int>, rest: seq<int>)
    requires lo <= x && Sorted([lo] + s) && Sorted(rest)
    requires multiset(rest) == multiset(s) + multiset{x}
    ensures Sorted([lo] + rest)
    ensures multiset([lo] + rest) == multiset([lo] + s) + multiset{x}
  {
    forall k | 0 <= k < |rest|
      ensures lo <= rest[k]
    {
      assert rest[k] in multiset(rest);
      if rest[k] != x {
        assert rest[k] in multiset(s);
        var i :| 0 <= i < |s| && s[i] == rest[k];
        assert ([lo] + s)[0] == lo && ([lo] + s)[i + 1] == s[i];
      }
    }
    var r := [lo] + rest;
    forall i, j | 0 <= i < j < |r|
      ensures r[i] <= r[j]
    {
      if i > 0 {
        assert r[i] == rest[i - 1] && r[j] == rest[j - 1];
      } else {
        assert r[j] == rest[j - 1];
      }
    }
  }

  /** Insertion sort: the sorted permutation of `s`. */
  function Sort(s: seq<int>): (r: seq<int>)
    ensures Sorted(r)
    ensures multiset(r) == multiset(s)
    ensures |r| == |s|
  {
    if |s| == 0 then []
    else
      assert s == [s[0]] + s[1..];
      Insert(s[0], Sort(s[1..]))
  }

  /** Removing the first element removes one occurrence of it. */
  lemma MultisetTail(s: seq<int>)
    requires |s| > 0
    ensures multiset(s[1..]) == multiset(s) - multiset{s[0]}
  {
    assert s == [s[0]] + s[1..];
  }

  /** Sorted sequences with the same elements start with the same, smallest, element. */
  lemma SortedHeads(a: seq<int>, b: seq<int>)
    requires Sorted(a) && Sorted(b) && |a| > 0 && |b| > 0
    requires multiset(a) == multiset(b)
    ensures a[0] == b[0]
  {
    assert a[0] in multiset(b);
    assert b[0] in multiset(a);
    var i :| 0 <= i < |b| && b[i] == a[0];
    var j :| 0 <= j < |a| && a[j] == b[0];
  }

  /** Two sorted sequences with the same elements are the same sequence. */
  lemma {:induction false} SortedUnique(a: seq<int>, b: seq<int>)
    requires Sorted(a) && Sorted(b)
    requires multiset(a) == multiset(b)
    ensures a == b
    decreases |a|
  {
    assert |a| == |multiset(a)| == |multiset(b)| == |b|;
    if |a| > 0 {
      SortedHeads(a, b);
      MultisetTail(a);
      MultisetTail(b);
      SortedUnique(a[1..], b[1..]);
      assert a == [a[0]] + a[1..];
      assert b == [b[0]] + b[1..];
    }
  }

  /** The largest element of a non-empty sequence of integers. */
  function SeqMax(s: seq<int>): (r: int)
    requires |s| > 0
    ensures forall i :: 0 <= i < |s| ==> s[i] <= r
    ensures exists i :: 0 <= i < |s| && s[i] == r
  {
    if |s| == 1 then s[0]
    else
      var m := SeqMax(s[1..]);
      assert forall i :: 1 <= i < |s| ==> s[i] == s[1..][i - 1];
      if s[0] >= m then s[0] else m
  }

  /** The smallest element of a non-empty sequence of integers. */
  function SeqMin(s: seq<int>): (r: int)
    requires |s| > 0
    ensures forall i :: 0 <= i < |s| ==> r <= s[i]
    ensures exists i :: 0 <= i < |s| && s[i] == r
  {
    if |s| == 1 then s[0]
    else
      var m := SeqMin(s[1..]);
      assert forall i :: 1 <= i < |s| ==> s[i] == s[1..][i - 1];
      if s[0] <= m then s[0] else m
  }

  /** The largest element of a non-empty sequence of reals (`np.max` along one axis). */
  function RealMax(s: seq<real>): (r: real)
    requires |s| > 0
    ensures forall i :: 0 <= i < |s| ==> s[i] <= r
    ensures exists i :: 0 <= i < |s| && s[i] == r
  {
    if |s| == 1 then s[0]
    else
      var m := RealMax(s[1..]);
      assert forall i :: 1 <= i < |s| ==> s[i] == s[1..][i - 1];
      if s[0] >= m then s[0] else m
  }

  /** An upper bound that is attained is the maximum. */
  lemma RealMaxUnique(s: seq<real>, v: real)
    requires |s| > 0
    requires forall i :: 0 <= i < |s| ==> s[i] <= v
    requires exists i :: 0 <= i < |s| && s[i] == v
    ensures RealMax(s) == v
  {
    var i :| 0 <= i < |s| && s[i] == v;
    var j :| 0 <= j < |s| && s[j] == RealMax(s);
    assert v <= RealMax(s) && RealMax(s) <= v;
  }

  lemma SeqMaxUnique(s: seq<int>, v: int)
    requires |s| > 0
    requires forall i :: 0 <= i < |s| ==> s[i] <= v
    requires exists i :: 0 <= i < |s| && s[i] == v
    ensures SeqMax(s) == v
  {
    var i :| 0 <= i < |s| && s[i] == v;
    var j :| 0 <= j < |s| && s[j] == SeqMax(s);
    assert v <= SeqMax(s) && SeqMax(s) <= v;
  }

  /** `np.median` of a non-empty sequence: the middle element of the sorted
      values, or the mean of the two middle ones when the count is even. */
  function Median(s: seq<int>): (m: real)
    requires |s| > 0
    ensures SeqMin(s) as real <= m <= SeqMax(s) as real
  {
    var t := Sort(s);
    assert forall k :: 0 <= k < |t| ==> t[k] in multiset(s);
    Middle(t)
  }

  /** The middle element of a sorted sequence, or the mean of the two middle ones. */
  function Middle(t: seq<int>): real
    requires |t| > 0
  {
    var hi := t[|t| / 2];
    if |t| % 2 == 1 then hi as real
    else (t[|t| / 2 - 1] + hi) as real / 2.0
  }

  /** Every element equal means the median is that element. */
  lemma MedianOfConstant(s: seq<int>, v: int)
    requires |s| > 0
    requires forall i :: 0 <= i < |s| ==> s[i] == v
    ensures Median(s) == v as real
  {
    assert SeqMin(s) == v && SeqMax(s) == v;
  }

  /** The reflection `c - x` of every element. */
  function Reflect(s: seq<int>, c: int): (r: seq<int>)
    ensures |r| == |s|
    ensures forall i :: 0 <= i < |s| ==> r[i] == c - s[i]
  {
    seq(|s|, i requires 0 <= i < |s| => c - s[i])
  }

  function Reverse(s: seq<int>): (r: seq<int>)
    ensures |r| == |s|
    ensures forall i :: 0 <= i < |s| ==> r[i] == s[|s| - 1 - i]
  {
    seq(|s|, i requires 0 <= i < |s| => s[|s| - 1 - i])
  }

  lemma {:induction false} ReverseMultiset(s: seq<int>)
    ensures multiset(Reverse(s)) == multiset(s)
    decreases |s|
  {
    if |s| > 0 {
      ReverseMultiset(s[1..]);
      assert s == [s[0]] + s[1..];
      assert Reverse(s) == Reverse(s[1..]) + [s[0]];
    }
  }

  lemma ReflectAppend(a: seq<int>, b: seq<int>, c: int)
    ensures Reflect(a + b, c) == Reflect(a, c) + Reflect(b, c)
  {
  }

  /** Removing the element at `j` removes one occurrence of it. */
  lemma MultisetRemove(t: seq<int>, j: int)
    requires 0 <= j < |t|
    ensures multiset(t) == multiset{t[j]} + multiset(t[..j] + t[j + 1..])
  {
    assert t == t[..j] + [t[j]] + t[j + 1..];
  }

  lemma MultisetCancel(a: multiset<int>, b: multiset<int>, x: int)
    requires multiset{x} + a == multiset{x} + b
    ensures a == b
  {
    assert a == (multiset{x} + a) - multiset{x};
    assert b == (multiset{x} + b) - multiset{x};
  }

  lemma ReflectRemove(t: seq<int>, j: int, c: int)
    requires 0 <= j < |t|
    ensures multiset(Reflect(t, c)) == multiset{c - t[j]} + multiset(Reflect(t[..j] + t[j + 1..], c))
  {
    var r := Reflect(t, c);
    MultisetRemove(r, j);
    assert r[..j] + r[j + 1..] == Reflect(t[..j] + t[j + 1..], c);
  }

  /** Reflection maps permutations to permutations. */
  lemma {:induction false} ReflectPreservesMultisetEquality(s: seq<int>, t: seq<int>, c: int)
    requires multiset(s) == multiset(t)
    ensures multiset(Reflect(s, c)) == multiset(Reflect(t, c))
    decreases |s|
  {
    if |s| > 0 {
      var j := MatchFirst(s, t);
      ReflectPreservesMultisetEquality(s[1..], t[..j] + t[j + 1..], c);
      ReflectCombine(s, t, j, c);
    } else {
      assert |t| == |multiset(t)| == |multiset(s)| == 0;
    }
  }

  /** The first element of `s` sits at some position `j` of a permutation
      `t`, and the rests are permutations of each other. */
  lemma MatchFirst(s: seq<int>, t: seq<int>) returns (j: int)
    requires |s| > 0 && multiset(s) == multiset(t)
    ensures 0 <= j < |t| && t[j] == s[0]
    ensures multiset(s[1..]) == multiset(t[..j] + t[j + 1..])
  {
    assert s[0] in multiset(t);
    j :| 0 <= j < |t| && t[j] == s[0];
    MultisetRemove(s, 0);
    assert s[..0] + s[1..] == s[1..];
    MultisetRemove(t, j);
    MultisetCancel(multiset(s[1..]), multiset(t[..j] + t[j + 1..]), s[0]);
  }

  /** Matching the first element of `s` with element `j` of `t` extends a
      permutation of the reflected rests to the whole. */
  lemma ReflectCombine(s: seq<int>, t: seq<int>, j: int, c: int)
    requires |s| > 0 && 0 <= j < |t| && t[j] == s[0]
    requires multiset(Reflect(s[1..], c)) == multiset(Reflect(t[..j] + t[j + 1..], c))
    ensures multiset(Reflect(s, c)) == multiset(Reflect(t, c))
  {
    var a, b := Reflect(s[1..], c), Reflect(t[..j] + t[j + 1..], c);
    assert Reflect(s, c) == [c - s[0]] + a;
    ReflectRemove(t, j, c);
    assert multiset(Reflect(t, c)) == multiset{c - s[0]} + multiset(b);
  }

  /** Sorting the reflected values gives the reflection of the sorted values, reversed. */
  lemma SortReflect(s: seq<int>, c: int)
    ensures Sort(Reflect(s, c)) == Reverse(Reflect(Sort(s), c))
  {
    var t := Sort(s);
    var u := Reverse(Reflect(t, c));
    assert Sorted(u) by {
      forall i, j | 0 <= i < j < |u|
        ensures u[i] <= u[j]
      {
        assert t[|t| - 1 - j] <= t[|t| - 1 - i];
      }
    }
    ReverseMultiset(Reflect(t, c));
    ReflectPreservesMultisetEquality(t, s, c);
    SortedUnique(Sort(Reflect(s, c)), u);
  }

  /** The median commutes with reflection: the median of `c - x` is `c` minus the median. */
  lemma MedianReflect(s: seq<int>, c: int)
    requires |s| > 0
    ensures Median(Reflect(s, c)) == c as real - Median(s)
  {
    SortReflect(s, c);
    MiddleReverseReflect(Sort(s), c);
  }

  lemma MiddleReverseReflect(t: seq<int>, c: int)
    requires |t| > 0
    ensures Middle(Reverse(Reflect(t, c))) == c as real - Middle(t)
  {
    var u := Reverse(Reflect(t, c));
    var n := |t|;
    assert u[n / 2] == c - t[n - 1 - n / 2];
    if n % 2 == 0 {
      assert u[n / 2 - 1] == c - t[n / 2];
      assert n - 1 - n / 2 == n / 2 - 1;
    } else {
      assert n - 1 - n / 2 == n / 2;
    }
  }
}

=== FILE: text.dfy ===
/** String operations the program relies on: ASCII case mapping, suffix
    tests and zero-padded decimal formatting. */
module Text {

  /** `str.lower()` restricted to ASCII letters. */
  function LowerChar(c: char): char
  {
    if 'A' <= c <= 'Z' then (c as int + 32) as char else c
  }

  /** `str.upper()` restricted to ASCII letters. */
  function UpperChar(c: char): char
  {
    if 'a' <= c <= 'z' then (c as int - 32) as char else c
  }

  function Lower(s: string): (r: string)
    ensures |r| == |s|
    ensures forall i :: 0 <= i < |s| ==> r[i] == LowerChar(s[i])
  {
    seq(|s|, i requires 0 <= i < |s| => LowerChar(s[i]))
  }

  function Upper(s: string): (r: string)
    ensures |r| == |s|
    ensures forall i :: 0 <= i < |s| ==> r[i] == UpperChar(s[i])
  {
    seq(|s|, i requires 0 <= i < |s| => UpperChar(s[i]))
  }

  /** Upper-casing forgets exactly the case of ASCII letters. */
  lemma UpperOfLower(s: string)
    ensures Upper(Lower(s)) == Upper(s)
  {
  }

  /** `s.endswith(suffix)`. */
  predicate EndsWith(s: string, suffix: string)
  {
    |suffix| <= |s| && s[|s| - |suffix|..] == suffix
  }

  // ---------------------------------------------------------------------
  // Decimal formatting

  function DigitChar(d: int): (c: char)
    requires 0 <= d < 10
    ensures '0' <= c <= '9'
  {
    ('0' as int + d) as char
  }

  predicate IsDigit(c: char) { '0' <= c <= '9' }

  predicate AllDigits(s: string)
  {
    forall i :: 0 <= i < |s| ==> IsDigit(s[i])
  }

  /** The decimal digits of `n`, without leading zeros (`str(n)`). */
  function Decimal(n: nat): (s: string)
    ensures |s| > 0 && AllDigits(s)
    ensures n < 10 ==> |s| == 1
    ensures n >= 10 ==> |s| == |Decimal(n / 10)| + 1
  {
    if n < 10 then [DigitChar(n)] else Decimal(n / 10) + [DigitChar(n % 10)]
  }

  /** The value of a string of decimal digits. */
  function DigitsValue(s: string): nat
    requires AllDigits(s)
  {
    if |s| == 0 then 0 else 10 * DigitsValue(s[..|s| - 1]) + (s[|s| - 1] as int - '0' as int)
  }

  /** `f"{n:0{width}d}"` for `n >= 0`: the decimal digits, left-padded with
      zeros to at least `width` characters. */
  function ZeroPad(n: nat, width: nat): (s: string)
    ensures AllDigits(s)
  {
    var d := Decimal(n);
    if |d| >= width then d else seq(width - |d|, _ => '0') + d
  }

  /** Fewer than four digits are needed below 10000. */
  lemma {:induction false} DecimalLength(n: nat)
    ensures n < 10 ==> |Decimal(n)| == 1
    ensures n < 100 ==> |Decimal(n)| <= 2
    ensures n < 1000 ==> |Decimal(n)| <= 3
    ensures n < 10000 ==> |Decimal(n)| <= 4
    ensures n >= 10000 ==> |Decimal(n)| > 4
  {
    if n >= 10 {
      DecimalLength(n / 10);
    }
  }

  lemma {:induction false} DecimalRoundTrip(n: nat)
    ensures DigitsValue(Decimal(n)) == n
  {
    if n >= 10 {
      DecimalRoundTrip(n / 10);
      var s := Decimal(n);
      assert s[..|s| - 1] == Decimal(n / 10);
    }
  }

  /** Leading zeros do not change the value. */
  lemma {:induction false} LeadingZeros(k: nat, d: string)
    requires AllDigits(d)
    ensures AllDigits(seq(k, _ => '0') + d)
    ensures DigitsValue(seq(k, _ => '0') + d) == DigitsValue(d)
    decreases |d|
  {
    var z := seq(k, _ => '0');
    if |d| == 0 {
      assert z + d == z;
      ZerosValue(k);
    } else {
      var d' := d[..|d| - 1];
      LeadingZeros(k, d');
      assert (z + d)[..|z + d| - 1] == z + d';
    }
  }

  lemma {:induction false} ZerosValue(k: nat)
    ensures DigitsValue(seq(k, _ => '0')) == 0
  {
    if k > 0 {
      ZerosValue(k - 1);
      assert seq(k, _ => '0')[..k - 1] == seq(k - 1, _ => '0');
    }
  }

  /** Reading a zero-padded number back gives the number. */
  lemma ZeroPadRoundTrip(n: nat, width: nat)
    ensures DigitsValue(ZeroPad(n, width)) == n
  {
    var d := Decimal(n);
    DecimalRoundTrip(n);
    if |d| < width {
      var z := seq(width - |d|, _ => '0');
      assert ZeroPad(n, width) == z + d;
      LeadingZeros(width - |d|, d);
    } else {
      assert ZeroPad(n, width) == d;
    }
  }
}

=== FILE: ui.dfy ===
/** The pure decisions of the main window: which dropped file is taken, how
    the frame spin boxes are set up, what parameters a run receives, and
    which files an export writes. Widgets are reduced to the values they
    hold; dialogs are reduced to the answers they return. */
module Ui {
  import opened Base
  import opened Text
  import opened Images
  import opened Config
  import opened Processors
  import opened Utils
  import opened Worker

  // ---------------------------------------------------------------------
  // Dropping a file

  const VideoExtensions: seq<string> := [".mp4", ".avi", ".mov", ".mkv"]

  /** `path.lower().endswith(('.mp4', '.avi', '.mov', '.mkv'))`. */
  predicate HasVideoExtension(path: string)
    ensures HasVideoExtension(path) ==> |path| >= 4 && path[|path| - 4] == '.'
  {
    exists i :: 0 <= i < |VideoExtensions| && EndsWith(Lower(path), VideoExtensions[i])
  }

  /** `dropEvent`: the first dropped file is loaded when it names a video;
      nothing happens otherwise, and the other files are ignored. */
  function AcceptDrop(files: seq<string>): (r: Option<string>)
    ensures r.Some? <==> |files| > 0 && HasVideoExtension(files[0])
    ensures r.Some? ==> r.value == files[0]
  {
    if |files| > 0 && HasVideoExtension(files[0]) then Some(files[0]) else None
  }

  /** Lower-casing commutes with taking a suffix. */
  lemma LowerSuffix(s: string, n: nat)
    requires n <= |s|
    ensures Lower(s)[n..] == Lower(s[n..])
  {
  }

  /** A path names a video exactly when its last four characters, lower-cased,
      are one of the four extensions: the test ignores case. */
  lemma VideoExtensionIsLastFour(path: string)
    ensures HasVideoExtension(path) <==> |path| >= 4 && Lower(path[|path| - 4..]) in VideoExtensions
  {
    if |path| >= 4 {
      LowerSuffix(path, |path| - 4);
    }
    if HasVideoExtension(path) {
      var i :| 0 <= i < |VideoExtensions| && EndsWith(Lower(path), VideoExtensions[i]);
      assert |VideoExtensions[i]| == 4;
    }
    if |path| >= 4 && Lower(path[|path| - 4..]) in VideoExtensions {
      var i :| 0 <= i < |VideoExtensions| && VideoExtensions[i] == Lower(path[|path| - 4..]);
      assert EndsWith(Lower(path), VideoExtensions[i]);
    }
  }

  /** "CLIP.MP4" is taken; a text file and an empty drop are not. */
  lemma DropExamples()
    ensures AcceptDrop(["CLIP.MP4", "notes.txt"]) == Some("CLIP.MP4")
    ensures AcceptDrop(["notes.txt", "clip.mp4"]) == None
    ensures AcceptDrop([]) == None
  {
    UpperCaseVideoAccepted();
    TextFileRejected();
  }

  lemma UpperCaseVideoAccepted()
    ensures AcceptDrop(["CLIP.MP4", "notes.txt"]) == Some("CLIP.MP4")
  {
    VideoExtensionIsLastFour("CLIP.MP4");
    assert Lower("CLIP.MP4"[4..]) == ".mp4";
  }

  lemma TextFileRejected()
    ensures AcceptDrop(["notes.txt", "clip.mp4"]) == None
  {
    VideoExtensionIsLastFour("notes.txt");
    assert Lower("notes.txt"[5..]) == ".txt";
  }

  // ---------------------------------------------------------------------
  // Spin boxes

  /** A `QSpinBox`: its range and current value. */
  datatype SpinBox = SpinBox(minimum: int, maximum: int, value: int)

  predicate ValidBox(b: SpinBox)
  {
    b.minimum <= b.value <= b.maximum
  }

  function Distance(a: int, b: int): nat
  {
    if a <= b then b - a else a - b
  }

  /** `setValue(v)`: the legal value nearest to `v`. */
  function SetValue(b: SpinBox, v: int): (r: SpinBox)
    requires b.minimum <= b.maximum
    ensures ValidBox(r) && r.minimum == b.minimum && r.maximum == b.maximum
    ensures forall u :: r.minimum <= u <= r.maximum ==> Distance(r.value, v) <= Distance(u, v)
  {
    b.(value := if v < b.minimum then b.minimum else if v > b.maximum then b.maximum else v)
  }

  /** `setRange(lo, hi)`: a maximum below the minimum is raised to it, and
      the value is moved into the new range. */
  function SetRange(b: SpinBox, lo: int, hi: int): (r: SpinBox)
    ensures ValidBox(r) && r.minimum == lo && r.maximum == MaxInt(lo, hi)
    ensures lo <= b.value <= hi ==> r.value == b.value
  {
    SetValue(SpinBox(lo, MaxInt(lo, hi), b.value), b.value)
  }

  /** A freshly built spin box: range 0 to 99, value 0. */
  const DefaultBox := SpinBox(0, 99, 0)

  /** A spin box built with keyword arguments `value` and `minimum`. */
  function BoxWith(value: int, minimum: int): (b: SpinBox)
    requires minimum <= value <= 99
    ensures ValidBox(b) && b.minimum == minimum && b.value == value && b.maximum == 99
  {
    SpinBox(minimum, 99, value)
  }

  // ---------------------------------------------------------------------
  // The controls of a run

  const AlgorithmChoices: seq<string> := [FarnebackName, DenseFlowName, FlowTraceName]
  const ColormapChoices: seq<string> := ["hsv", "jet", "viridis", GrayscaleName]

  /** The values of the widgets a run's parameters are read from. */
  datatype Controls = Controls(
    algorithm: string, winSize: SpinBox, pyrLevels: SpinBox, iterations: SpinBox,
    magSlider: int, cmap: string, arrowDensity: SpinBox, arrowSize: SpinBox, smooth: bool,
    start: SpinBox, end: SpinBox, step: SpinBox, invert: bool, bgSubtract: bool)

  /** What the widgets guarantee: every spin box holds a legal value, the
      window size, arrow density, step and arrow size boxes start at 1, the
      arrow size box stops at a thickness OpenCV draws, the slider is
      within 0 to 100, and the combo boxes hold one of their items. */
  predicate WidgetInvariant(c: Controls)
  {
    && ValidBox(c.winSize) && ValidBox(c.pyrLevels) && ValidBox(c.iterations)
    && ValidBox(c.arrowDensity) && ValidBox(c.arrowSize)
    && ValidBox(c.start) && ValidBox(c.end) && ValidBox(c.step)
    && c.winSize.minimum >= 1 && c.arrowDensity.minimum >= 1 && c.step.minimum >= 1
    && c.arrowSize.minimum >= 1 && c.arrowSize.maximum <= MaxThickness
    && 0 <= c.magSlider <= 100
    && c.algorithm in AlgorithmChoices && c.cmap in ColormapChoices
  }

  /** The controls as the window's constructor leaves them. */
  function InitialControls(): (c: Controls)
    ensures WidgetInvariant(c)
  {
    Controls(FarnebackName, BoxWith(15, 1), BoxWith(3, 1), BoxWith(3, 1), 0, "hsv",
             BoxWith(16, 1), BoxWith(1, 1), false, DefaultBox, DefaultBox, BoxWith(1, 1), false, false)
  }

  /** The frame boxes after `load_video` of a video reporting `total` frames. */
  function LoadVideo(c: Controls, total: int): (r: Controls)
    requires WidgetInvariant(c)
    ensures WidgetInvariant(r)
    ensures r == c.(start := r.start, end := r.end)
  {
    var start := SetRange(c.start, 0, total - 1);
    var end := SetRange(c.end, 0, total - 1);
    c.(start := start, end := SetValue(end, total - 1))
  }

  /** After loading a video with at least one frame, both boxes range over
      its frames and the end box holds the last frame; a video reporting no
      frames leaves both boxes fixed at 0. */
  lemma LoadedRangesCoverVideo(c: Controls, total: int)
    requires WidgetInvariant(c)
    ensures var r := LoadVideo(c, total);
      && r.start.minimum == 0 && r.end.minimum == 0
      && (total >= 1 ==> r.start.maximum == total - 1 && r.end.maximum == total - 1 && r.end.value == total - 1)
      && (total < 1 ==> r.start == SpinBox(0, 0, 0) && r.end == SpinBox(0, 0, 0))
  {
  }

  /** `toggle_entire(state)`: checking the box selects from the first frame to
      frame `total - 1`, as far as the boxes allow; unchecking changes no value. */
  function ToggleEntire(c: Controls, checked: bool, total: int): (r: Controls)
    requires WidgetInvariant(c)
    ensures WidgetInvariant(r)
    ensures !checked ==> r == c
    ensures r == c.(start := r.start, end := r.end)
  {
    if checked then c.(start := SetValue(c.start, 0), end := SetValue(c.end, total - 1)) else c
  }

  /** Once a video with at least one frame is loaded, "Process Entire Video"
      selects exactly its frames. */
  lemma EntireVideoAfterLoad(c: Controls, total: int)
    requires WidgetInvariant(c) && total >= 1
    ensures var r := ToggleEntire(LoadVideo(c, total), true, total);
      r.start.value == 0 && r.end.value == total - 1
  {
  }

  /** `mag_threshold`: the slider position divided by 100. */
  function MagThreshold(slider: int): (t: real)
    requires 0 <= slider <= 100
    ensures 0.0 <= t <= 1.0
    ensures t * 100.0 == slider as real
  {
    slider as real / 100.0
  }

  const NoVideoMessage := "No video loaded"

  /** `start_processing`: refused without a video, otherwise the parameters read off the widgets. */
  function StartProcessing(videoPath: string, c: Controls): (r: Result<Params>)
    requires WidgetInvariant(c)
    ensures r.Failure? <==> videoPath == ""
    ensures r.Failure? ==> r.message == NoVideoMessage
    ensures r.Success? ==>
      && r.value.algorithm == c.algorithm && r.value.cmap == c.cmap
      && r.value.winSize == c.winSize.value && r.value.step == c.step.value
      && r.value.startFrame == c.start.value && r.value.endFrame == c.end.value
      && r.value.arrowDensity == c.arrowDensity.value
      && r.value.magThreshold * 100.0 == c.magSlider as real
    ensures r.Success? ==>
      && r.value.pyrLevels == c.pyrLevels.value && r.value.iterations == c.iterations.value
      && r.value.arrowSize == c.arrowSize.value && r.value.smooth == c.smooth
      && r.value.invert == c.invert && r.value.bgSubtract == c.bgSubtract
  {
    if videoPath == "" then Failure(NoVideoMessage)
    else
      Success(Params(c.algorithm, c.winSize.value, c.pyrLevels.value, c.iterations.value,
                     MagThreshold(c.magSlider), c.cmap, c.arrowDensity.value, c.arrowSize.value, c.smooth,
                     c.start.value, c.end.value, c.step.value, c.invert, c.bgSubtract))
  }

  /** Parameters read off the widgets never reach the zero-step, zero-density
      or thickness errors: the step, trace length and arrow density are at
      least 1, the arrow size is a thickness OpenCV draws, the threshold lies in [0, 1], the algorithm is one the
      worker dispatches, and the colour map is found by name or is grey. */
  lemma WidgetParamsAreSafe(videoPath: string, c: Controls)
    requires WidgetInvariant(c) && videoPath != ""
    ensures var p := StartProcessing(videoPath, c).value;
      && p.step >= 1 && p.winSize >= 1 && p.arrowDensity >= 1 && ValidThickness(p.arrowSize)
      && 0.0 <= p.magThreshold <= 1.0
      && (p.algorithm == FlowTraceName || IsFlowAlgorithm(p.algorithm))
      && (p.cmap == GrayscaleName || LookupColormap(p.cmap) in {Hsv, Jet, Viridis})
  {
    assert Upper("hsv") == "HSV" && Upper("jet") == "JET" && Upper("viridis") == "VIRIDIS";
  }

  /** A run started from the widgets never fails for its step: a run that
      stops before reading any frame does so only because the trace length
      exceeds the frame range, and no flow picture fails for its arrow
      density or arrow size. */
  lemma WidgetRunsAvoidSettingErrors<F>(videoPath: string, c: Controls, frames: seq<F>, e: Engine<F>, field: Field)
    requires WidgetInvariant(c) && videoPath != ""
    ensures var p := StartProcessing(videoPath, c).value;
      var o := Run(frames, p, e);
      && (!o.released && o.attempts == 0 ==> o.events == [Error(TraceTooLongMessage)])
      && VisualizeFlow(field, p, e.magnitude).Success?
  {
    var p := StartProcessing(videoPath, c).value;
    WidgetParamsAreSafe(videoPath, c);
    if p.algorithm == FlowTraceName {
      if p.winSize <= p.endFrame - p.startFrame + 1 {
        DriveTrace(frames, p, e, false);
        TraceLoopFailsAfterRead(frames, 0, RangeLen(p.startFrame, p.endFrame + 1, p.step), [], 0,
                                TotalWindows(p.startFrame, p.endFrame, p.winSize, p.step), p.winSize, e, TraceStep(p));
      }
    } else {
      DriveFlow(frames, p, e, false);
      FlowLoopFailsAfterRead(frames, 0, RangeLen(p.startFrame, p.endFrame + 1, p.step), None, 0,
                             TotalPairs(p.startFrame, p.endFrame, p.step), e, PairStep(p, e));
    }
  }

  // ---------------------------------------------------------------------
  // Export

  const NoResultsMessage := "No processed results to export"
  const VideoSuffix := ".mp4"
  const ArraySuffix := ".npy"
  const DefaultFps := 30.0

  /** `if not path.endswith(suffix): path += suffix` (case-sensitive). */
  function WithSuffix(path: string, suffix: string): (r: string)
    ensures EndsWith(r, suffix)
    ensures EndsWith(path, suffix) ==> r == path
    ensures |r| >= |path| && r[..|path|] == path
    ensures !EndsWith(path, suffix) ==> |r| == |path| + |suffix|
  {
    if EndsWith(path, suffix) then path else path + suffix
  }

  /** Normalising twice is normalising once. */
  lemma WithSuffixIdempotent(path: string, suffix: string)
    ensures WithSuffix(WithSuffix(path, suffix), suffix) == WithSuffix(path, suffix)
  {
  }

  /** The suffix test is case-sensitive: "clip.MP4" gains a second extension. */
  lemma WithSuffixIsCaseSensitive()
    ensures WithSuffix("clip.MP4", VideoSuffix) == "clip.MP4.mp4"
    ensures WithSuffix("clip.mp4", VideoSuffix) == "clip.mp4"
  {
    assert "clip.MP4"[4..] == ".MP4";
    assert "clip.mp4"[4..] == ".mp4";
  }

  /** `f"frame_{i:04d}.png"`. */
  function FrameFileName(i: nat): (name: string)
    ensures |name| >= 14 && name[..6] == "frame_" && name[|name| - 4..] == ".png"
    ensures i < 10000 ==> |name| == 14
  {
    "frame_" + ZeroPad(i, 4) + ".png"
  }

  /** The index an image name encodes, if it has the exported form. */
  function FrameIndex(name: string): (r: Option<nat>)
  {
    if |name| >= 10 && name[..6] == "frame_" && name[|name| - 4..] == ".png" && AllDigits(name[6..|name| - 4])
    then Some(DigitsValue(name[6..|name| - 4]))
    else None
  }

  /** Each name reads back as its index. */
  lemma FrameFileNameRoundTrip(i: nat)
    ensures FrameIndex(FrameFileName(i)) == Some(i)
  {
    var z := ZeroPad(i, 4);
    var name := FrameFileName(i);
    DecimalLength(i);
    assert name[..6] == "frame_";
    assert name[|name| - 4..] == ".png";
    assert name[6..|name| - 4] == z;
    ZeroPadRoundTrip(i, 4);
  }

  /** Distinct results get distinct names, and below 10000 every name has
      14 characters. */
  lemma FrameFileNames(i: nat, j: nat)
    ensures i != j ==> FrameFileName(i) != FrameFileName(j)
    ensures i < 10000 ==> |FrameFileName(i)| == 14
    ensures i >= 10000 ==> |FrameFileName(i)| > 14
  {
    FrameFileNameRoundTrip(i);
    FrameFileNameRoundTrip(j);
    DecimalLength(i);
  }

  /** The formats offered by the export dialog. */
  datatype ExportKind = VideoMp4 | ImageSequence | NumpyArray

  /** The file writes of an export. */
  datatype ExportAction =
    | Refused(message: string)                                      // the warning dialog
    | Cancelled                                                     // a dialog was dismissed
    | WriteVideo(path: string, fourcc: int, fps: real, frameCount: nat)  // cv2.VideoWriter
    | WriteImages(directory: string, names: seq<string>)           // cv2.imwrite per result
    | WriteArray(path: string, frameCount: nat)                     // np.save of the stack

  /** `export_results` with `count` results, the chosen format (`None` when
      the format dialog is cancelled), the path or directory the file
      dialog returns ("" when cancelled) and the loaded video's frame rate
      (`None` before a video's metadata is known). */
  function Export(count: nat, kind: Option<ExportKind>, target: string, fps: Option<real>): (a: ExportAction)
    ensures count == 0 <==> a == Refused(NoResultsMessage)
    ensures count > 0 && (kind.None? || target == "") ==> a == Cancelled
    ensures a.WriteVideo? ==> EndsWith(a.path, VideoSuffix) && a.frameCount == count
    ensures a.WriteArray? ==> EndsWith(a.path, ArraySuffix) && a.frameCount == count
    ensures a.WriteImages? ==> |a.names| == count && forall i :: 0 <= i < count ==> FrameIndex(a.names[i]) == Some(i)
    ensures count > 0 && kind == Some(VideoMp4) && target != "" ==>
      && a.WriteVideo? && a.path == WithSuffix(target, VideoSuffix) && a.fourcc == FourccCode("mp4v")
      && a.fps == (if fps.Some? then fps.value else DefaultFps)
    ensures count > 0 && kind == Some(ImageSequence) && target != "" ==>
      && a.WriteImages? && a.directory == target
      && forall i :: 0 <= i < count ==> a.names[i] == FrameFileName(i)
    ensures count > 0 && kind == Some(NumpyArray) && target != "" ==>
      a.WriteArray? && a.path == WithSuffix(target, ArraySuffix)
  {
    if count == 0 then Refused(NoResultsMessage)
    else if kind.None? || target == "" then Cancelled
    else match kind.value
      case VideoMp4 =>
        WriteVideo(WithSuffix(target, VideoSuffix), FourccCode("mp4v"),
                   if fps.Some? then fps.value else DefaultFps, count)
      case ImageSequence =>
        var names := seq(count, i requires 0 <= i < count => FrameFileName(i));
        assert forall i :: 0 <= i < count ==> FrameIndex(names[i]) == Some(i) by {
          forall i | 0 <= i < count
            ensures FrameIndex(names[i]) == Some(i)
          {
            FrameFileNameRoundTrip(i);
          }
        }
        WriteImages(target, names)
      case NumpyArray => WriteArray(WithSuffix(target, ArraySuffix), count)
  }

  /** An exported video is tagged with the codec the metadata reader decodes
      as "mp4v", and takes the loaded video's frame rate or 30. */
  lemma ExportedVideoCodec(count: nat, target: string, fps: Option<real>)
    requires count > 0 && target != ""
    ensures var a := Export(count, Some(VideoMp4), target, fps);
      && a.WriteVideo?
      && CodecString(a.fourcc) == "mp4v"
      && a.fps == (if fps.Some? then fps.value else DefaultFps)
  {
    CodecOfPackedCode("mp4v");
  }
}

=== FILE: utils.dfy ===
/** The helpers of the utilities file: the metadata computed from a capture's
    properties (codec string, duration), and the two visualisers. Colour
    conversion, colour maps, arrow drawing and blurring are OpenCV routines;
    their results are kept as `ColorImage` terms. */
module Utils {
  import opened Base
  import opened Text
  import opened Images
  import opened Config
  import opened Arith

  // ---------------------------------------------------------------------
  // Metadata

  function Pow256(i: nat): (p: nat)
    ensures p > 0
  {
    if i == 0 then 1 else 256 * Pow256(i - 1)
  }

  /** `(fourcc >> 8*i) & 0xFF`: Python's shift is a floor division and the
      mask a non-negative remainder, for negative codes too. */
  function FourccByte(fourcc: int, i: nat): (b: int)
    ensures 0 <= b < 256
  {
    (fourcc / Pow256(i)) % 256
  }

  /** The codec string: four characters, least significant byte first. */
  function CodecString(fourcc: int): (s: string)
    ensures |s| == 4
    ensures forall i :: 0 <= i < 4 ==> 0 <= s[i] as int < 256 && s[i] as int == FourccByte(fourcc, i)
  {
    seq(4, i requires 0 <= i < 4 => FourccByte(fourcc, i) as char)
  }

  /** The four 8-bit characters packed least significant first, as the
      unsigned sum `c0 + (c1 << 8) + (c2 << 16) + (c3 << 24)`. */
  function PackedBytes(s: string): (u: int)
    requires |s| == 4
    requires forall i :: 0 <= i < 4 ==> s[i] as int < 256
    ensures 0 <= u < 0x1_0000_0000
  {
    s[0] as int + 256 * s[1] as int + 65536 * s[2] as int + 16777216 * s[3] as int
  }

  /** The value a 32-bit two's-complement C `int` holds after `x` is stored in it. */
  function ToInt32(x: int): (r: int)
    ensures -0x8000_0000 <= r < 0x8000_0000
    ensures r % 0x1_0000_0000 == x % 0x1_0000_0000
    ensures -0x8000_0000 <= x < 0x8000_0000 ==> r == x
  {
    var m := x % 0x1_0000_0000;
    WrapFacts(x);
    if m >= 0x8000_0000 then m - 0x1_0000_0000 else m
  }

  /** The remainder facts behind `ToInt32`. */
  lemma WrapFacts(x: int)
    ensures var m := x % 0x1_0000_0000;
      && m % 0x1_0000_0000 == m && (m - 0x1_0000_0000) % 0x1_0000_0000 == m
      && (0 <= x < 0x8000_0000 ==> m == x)
      && (-0x8000_0000 <= x < 0 ==> m == x + 0x1_0000_0000)
  {
    var m := x % 0x1_0000_0000;
    DivUnique(m, 0x1_0000_0000, 0, m);
    DivUnique(m - 0x1_0000_0000, 0x1_0000_0000, -1, m);
    if 0 <= x < 0x8000_0000 {
      DivUnique(x, 0x1_0000_0000, 0, x);
    }
    if -0x8000_0000 <= x < 0 {
      DivUnique(x, 0x1_0000_0000, -1, x + 0x1_0000_0000);
    }
  }

  /** `cv2.VideoWriter_fourcc(c0, c1, c2, c3)`: OpenCV's `VideoWriter::fourcc`
      packs the four characters into a C `int`, so a fourth character of
      0x80 or above makes the code negative. */
  function FourccCode(s: string): (code: int)
    requires |s| == 4
    requires forall i :: 0 <= i < 4 ==> s[i] as int < 256
    ensures -0x8000_0000 <= code < 0x8000_0000
    ensures code % 0x1_0000_0000 == PackedBytes(s)
    ensures code < 0 <==> s[3] as int >= 128
  {
    var u := PackedBytes(s);
    DivUnique(u, 0x1_0000_0000, 0, u);
    ToInt32(u)
  }

  lemma Pow256Values()
    ensures Pow256(0) == 1 && Pow256(1) == 256 && Pow256(2) == 65536 && Pow256(3) == 16777216
  {
    assert Pow256(1) == 256 * Pow256(0);
    assert Pow256(2) == 256 * Pow256(1);
    assert Pow256(3) == 256 * Pow256(2);
  }

  /** The shifts by 16 and 24 bits are repeated shifts by 8. */
  lemma RepeatedShifts(a: int)
    ensures a / 65536 == (a / 256) / 256
    ensures a / 16777216 == ((a / 256) / 256) / 256
    ensures a / 0x1_0000_0000 == (((a / 256) / 256) / 256) / 256
  {
    DivNested(a, 256, 256);
    DivNested(a, 65536, 256);
    DivNested(a, 16777216, 256);
  }

  /** Decoding the unsigned packing gives back the four characters. */
  lemma CodecOfPackedBytes(s: string)
    requires |s| == 4
    requires forall i :: 0 <= i < 4 ==> s[i] as int < 256
    ensures CodecString(PackedBytes(s)) == s
  {
    var code := PackedBytes(s);
    var c0, c1, c2, c3 := s[0] as int, s[1] as int, s[2] as int, s[3] as int;
    Pow256Values();
    RepeatedShifts(code);
    assert code == (c1 + 256 * (c2 + 256 * c3)) * 256 + c0;
    DivUnique(code, 256, c1 + 256 * (c2 + 256 * c3), c0);
    DivUnique(c1 + 256 * (c2 + 256 * c3), 256, c2 + 256 * c3, c1);
    DivUnique(c2 + 256 * c3, 256, c3, c2);
    DivUnique(c3, 256, 0, c3);
    var r := CodecString(code);
    assert r[0] as int == c0 && r[1] as int == c1 && r[2] as int == c2 && r[3] as int == c3;
  }

  /** Subtracting `k` multiples of `d` lowers the quotient by `k` and keeps the remainder. */
  lemma DropMultiple(a: int, d: int, k: int)
    requires d > 0
    ensures (a - k * d) / d == a / d - k && (a - k * d) % d == a % d
  {
    assert a == (a / d) * d + a % d;
    assert a - k * d == (a / d - k) * d + a % d;
    DivUnique(a - k * d, d, a / d - k, a % d);
  }

  /** The four bytes of a code do not see a multiple of 2^32. */
  lemma FourccByteWraps(a: int, i: nat)
    requires i < 4
    ensures FourccByte(a - 0x1_0000_0000, i) == FourccByte(a, i)
  {
    Pow256Values();
    var p := Pow256(i);
    var k := if i == 0 then 0x100_0000 else if i == 1 then 0x1_0000 else if i == 2 then 0x100 else 1;
    assert 256 * k * p == 0x1_0000_0000;
    DropMultiple(a, p, 256 * k);
    DropMultiple(a / p, 256, k);
  }

  /** Decoding a packed code gives back its four characters, whether or not
      the C `int` made it negative. */
  lemma CodecOfPackedCode(s: string)
    requires |s| == 4
    requires forall i :: 0 <= i < 4 ==> s[i] as int < 256
    ensures CodecString(FourccCode(s)) == s
  {
    var u := PackedBytes(s);
    CodecOfPackedBytes(s);
    DivUnique(u, 0x1_0000_0000, 0, u);
    if u >= 0x8000_0000 {
      assert FourccCode(s) == u - 0x1_0000_0000;
      forall i | 0 <= i < 4
        ensures CodecString(u - 0x1_0000_0000)[i] == CodecString(u)[i]
      {
        FourccByteWraps(u, i);
      }
    }
  }

  /** Packing the decoded characters of a code gives the code as a C `int`
      holds it, so every code that fits in 32 bits comes back unchanged. */
  lemma PackedCodeOfCodec(fourcc: int)
    ensures FourccCode(CodecString(fourcc)) == ToInt32(fourcc)
    ensures -0x8000_0000 <= fourcc < 0x8000_0000 ==> FourccCode(CodecString(fourcc)) == fourcc
  {
    var f1 := fourcc / 256;
    var f2 := f1 / 256;
    var f3 := f2 / 256;
    var f4 := f3 / 256;
    assert fourcc == f1 * 256 + fourcc % 256;
    assert f1 == f2 * 256 + f1 % 256;
    assert f2 == f3 * 256 + f2 % 256;
    assert f3 == f4 * 256 + f3 % 256;
    Pow256Values();
    RepeatedShifts(fourcc);
    var s := CodecString(fourcc);
    assert s[0] as int == fourcc % 256 && s[1] as int == f1 % 256;
    assert s[2] as int == f2 % 256 && s[3] as int == f3 % 256;
    assert PackedBytes(s) == fourcc - 0x1_0000_0000 * f4;
    assert fourcc == (fourcc / 0x1_0000_0000) * 0x1_0000_0000 + fourcc % 0x1_0000_0000;
    var m := fourcc % 0x1_0000_0000;
    DivUnique(m, 0x1_0000_0000, 0, m);
    var u := PackedBytes(s);
    DivUnique(u, 0x1_0000_0000, 0, u);
    assert ToInt32(u) == ToInt32(fourcc);
  }

  /** The capture properties `get_video_metadata` reads, as OpenCV reports them (floats). */
  datatype CaptureProps = CaptureProps(width: real, height: real, fps: real, frameCount: real, fourcc: real)

  datatype Metadata = Metadata(width: int, height: int, fps: real, duration: real, codec: string)

  const CannotOpenMessage := "Could not open video file"

  /** `frame_count / fps`, or 0 when the frame rate is not positive. */
  function Duration(frameCount: real, fps: real): (d: real)
    ensures fps <= 0.0 ==> d == 0.0
    ensures fps > 0.0 ==> d * fps == frameCount
  {
    if fps > 0.0 then frameCount / fps else 0.0
  }

  /** `get_video_metadata`, given the capture's properties, or `None` when it did not open. */
  function VideoMetadata(props: Option<CaptureProps>): (r: Result<Metadata>)
    ensures props.None? <==> r == Failure(CannotOpenMessage)
    ensures props.Some? ==> r.Success? && |r.value.codec| == 4
    ensures props.Some? && props.value.fps <= 0.0 ==> r.Success? && r.value.duration == 0.0
    ensures props.Some? ==>
      && r.value.width == TruncReal(props.value.width) && r.value.height == TruncReal(props.value.height)
      && r.value.fps == props.value.fps
      && r.value.duration == Duration(props.value.frameCount, props.value.fps)
      && r.value.codec == CodecString(TruncReal(props.value.fourcc))
    ensures props.Some? && props.value.fps > 0.0 ==> r.value.duration * props.value.fps == props.value.frameCount
    ensures props.Some? ==> forall i :: 0 <= i < 4 ==>
      r.value.codec[i] as int == FourccByte(TruncReal(props.value.fourcc), i)
  {
    match props
    case None => Failure(CannotOpenMessage)
    case Some(c) =>
      Success(Metadata(TruncReal(c.width), TruncReal(c.height), c.fps,
                       Duration(c.frameCount, c.fps), CodecString(TruncReal(c.fourcc))))
  }

  // ---------------------------------------------------------------------
  // Trace visualiser

  const GrayscaleName := "grayscale"

  /** The colour map names OpenCV knows, without their `COLORMAP_` prefix. */
  function ColormapName(c: Colormap): string
  {
    match c
    case Autumn => "AUTUMN" case Bone => "BONE" case Jet => "JET" case Winter => "WINTER"
    case Rainbow => "RAINBOW" case Ocean => "OCEAN" case Summer => "SUMMER" case Spring => "SPRING"
    case Cool => "COOL" case Hsv => "HSV" case Pink => "PINK" case Hot => "HOT"
    case Parula => "PARULA" case Magma => "MAGMA" case Inferno => "INFERNO" case Plasma => "PLASMA"
    case Viridis => "VIRIDIS" case Cividis => "CIVIDIS" case Twilight => "TWILIGHT"
    case TwilightShifted => "TWILIGHT_SHIFTED" case Turbo => "TURBO" case Deepgreen => "DEEPGREEN"
  }

  /** The colour map OpenCV names `COLORMAP_<key>`, if there is one. */
  function NamedColormap(key: string): Option<Colormap>
  {
    if key == "AUTUMN" then Some(Autumn) else if key == "BONE" then Some(Bone)
    else if key == "JET" then Some(Jet) else if key == "WINTER" then Some(Winter)
    else if key == "RAINBOW" then Some(Rainbow) else if key == "OCEAN" then Some(Ocean)
    else if key == "SUMMER" then Some(Summer) else if key == "SPRING" then Some(Spring)
    else if key == "COOL" then Some(Cool) else if key == "HSV" then Some(Hsv)
    else if key == "PINK" then Some(Pink) else if key == "HOT" then Some(Hot)
    else if key == "PARULA" then Some(Parula) else if key == "MAGMA" then Some(Magma)
    else if key == "INFERNO" then Some(Inferno) else if key == "PLASMA" then Some(Plasma)
    else if key == "VIRIDIS" then Some(Viridis) else if key == "CIVIDIS" then Some(Cividis)
    else if key == "TWILIGHT" then Some(Twilight) else if key == "TWILIGHT_SHIFTED" then Some(TwilightShifted)
    else if key == "TURBO" then Some(Turbo) else if key == "DEEPGREEN" then Some(Deepgreen)
    else None
  }

  /** The table and the names agree: every colour map is found under its own name. */
  lemma NamedColormapOfName(c: Colormap)
    ensures NamedColormap(ColormapName(c)) == Some(c)
  {
    if c.Autumn? || c.Bone? || c.Jet? || c.Winter? || c.Rainbow? || c.Ocean? ||
       c.Summer? || c.Spring? || c.Cool? || c.Hsv? || c.Pink? {
      NamedColormapOfEarlyName(c);
    } else {
      NamedColormapOfLateName(c);
    }
  }

  lemma NamedColormapOfEarlyName(c: Colormap)
    requires c.Autumn? || c.Bone? || c.Jet? || c.Winter? || c.Rainbow? || c.Ocean? ||
             c.Summer? || c.Spring? || c.Cool? || c.Hsv? || c.Pink?
    ensures NamedColormap(ColormapName(c)) == Some(c)
  {
  }

  lemma NamedColormapOfLateName(c: Colormap)
    requires !(c.Autumn? || c.Bone? || c.Jet? || c.Winter? || c.Rainbow? || c.Ocean? ||
               c.Summer? || c.Spring? || c.Cool? || c.Hsv? || c.Pink?)
    ensures NamedColormap(ColormapName(c)) == Some(c)
  {
  }

  /** Only colour map names are found, each under its own name. */
  lemma NamedColormapSound(key: string)
    ensures NamedColormap(key).Some? ==> ColormapName(NamedColormap(key).value) == key
  {
  }

  /** `getattr(cv2, "COLORMAP_" + name.upper(), cv2.COLORMAP_HSV)`: never raises. */
  function LookupColormap(name: string): (c: Colormap)
    ensures ColormapName(c) == Upper(name) || (c == Hsv && NamedColormap(Upper(name)).None?)
  {
    NamedColormapSound(Upper(name));
    match NamedColormap(Upper(name))
    case Some(c) => c
    case None => Hsv
  }

  /** The look-up ignores the case of the name. */
  lemma LookupIgnoresCase(a: string, b: string)
    requires Upper(a) == Upper(b)
    ensures LookupColormap(a) == LookupColormap(b)
  {
  }

  /** Every colour map is found under its own name in any letter case, and a
      name that upper-cases to no colour map's name falls back to HSV. */
  lemma LookupColormapByName(name: string)
    ensures forall c :: Upper(name) == ColormapName(c) ==> LookupColormap(name) == c
    ensures (forall c :: Upper(name) != ColormapName(c)) ==> LookupColormap(name) == Hsv
  {
    forall c | Upper(name) == ColormapName(c)
      ensures LookupColormap(name) == c
    {
      NamedColormapOfName(c);
    }
    NamedColormapSound(Upper(name));
  }

  /** `cv2.cvtColor(trace, cv2.COLOR_GRAY2BGR)`: each value copied to all three channels. */
  function GrayToBgr(trace: Image): (rows: seq<seq<Pixel>>)
    ensures HasShape(rows, |trace|, Width(trace))
    ensures forall y, x :: 0 <= y < |trace| && 0 <= x < Width(trace) ==>
      rows[y][x].b == trace[y][x] && rows[y][x].g == trace[y][x] && rows[y][x].r == trace[y][x]
  {
    var w := Width(trace);
    seq(|trace|, y requires 0 <= y < |trace| => seq(w, x requires 0 <= x < w => Pixel(trace[y][x], trace[y][x], trace[y][x])))
  }

  /** A picture with a final blur removed, if it has one. */
  function Unblurred(img: ColorImage): ColorImage
  {
    if img.Blurred? then img.base else img
  }

  /** `visualize_flowtrace`: grey replicated into three channels for
      "grayscale", otherwise the named colour map (HSV for an unknown name);
      blurred exactly when smoothing is on. */
  function VisualizeTrace(trace: Image, cmap: string, smooth: bool): (r: ColorImage)
    ensures r.Blurred? <==> smooth
    ensures cmap == GrayscaleName ==> Unblurred(r) == Pixels(GrayToBgr(trace))
    ensures cmap != GrayscaleName ==> Unblurred(r) == ColorMapped(trace, LookupColormap(cmap))
  {
    var base := if cmap == GrayscaleName then Pixels(GrayToBgr(trace)) else ColorMapped(trace, LookupColormap(cmap));
    if smooth then Blurred(base) else base
  }

  /** The names are compared exactly before the look-up: "Grayscale" is not
      "grayscale", upper-cases to no colour map, and so renders with HSV;
      "viridis" and "JET" reach their maps. */
  lemma TraceColormapExamples(trace: Image)
    ensures Unblurred(VisualizeTrace(trace, "Grayscale", false)) == ColorMapped(trace, Hsv)
    ensures Unblurred(VisualizeTrace(trace, "viridis", true)) == ColorMapped(trace, Viridis)
    ensures Unblurred(VisualizeTrace(trace, "JET", false)) == ColorMapped(trace, Jet)
  {
    CapitalisedGrayscaleIsHsv(trace);
    LowerCaseViridis(trace);
    UpperCaseJet(trace);
  }

  lemma CapitalisedGrayscaleIsHsv(trace: Image)
    ensures Unblurred(VisualizeTrace(trace, "Grayscale", false)) == ColorMapped(trace, Hsv)
  {
    assert Upper("Grayscale") == "GRAYSCALE";
  }

  lemma LowerCaseViridis(trace: Image)
    ensures Unblurred(VisualizeTrace(trace, "viridis", true)) == ColorMapped(trace, Viridis)
  {
    assert Upper("viridis") == "VIRIDIS";
  }

  lemma UpperCaseJet(trace: Image)
    ensures Unblurred(VisualizeTrace(trace, "JET", false)) == ColorMapped(trace, Jet)
  {
    assert Upper("JET") == "JET";
  }

  // ---------------------------------------------------------------------
  // Flow visualiser

  const RangeStepZeroMessage := "range() arg 3 must not be zero"
  const ArrowColor := Pixel(0, 255, 0)

  /** `range(0, n, d)` for a positive step. */
  function SampleAxis(n: int, d: int): (r: seq<int>)
    requires d > 0
    ensures |r| == (if n <= 0 then 0 else (n + d - 1) / d)
  {
    var count := if n <= 0 then 0 else (n + d - 1) / d;
    seq(count, i requires 0 <= i < count => i * d)
  }

  lemma SampleAxisSound(n: int, d: int, i: int)
    requires d > 0 && 0 <= i < |SampleAxis(n, d)|
    ensures 0 <= i * d < n && (i * d) % d == 0
  {
    LeDiv(i + 1, n + d - 1, d);
    assert (i + 1) * d == i * d + d;
    if i > 0 { MulGe(i, d); }
    DivUnique(i * d, d, i, 0);
  }

  lemma SampleAxisComplete(n: int, d: int, v: int)
    requires d > 0 && 0 <= v < n && v % d == 0
    ensures 0 <= v / d < |SampleAxis(n, d)| && SampleAxis(n, d)[v / d] == v
  {
    var i := v / d;
    assert v == i * d + v % d;
    assert i >= 0 by {
      if i < 0 { MulMono(i, -1, d); }
    }
    assert (i + 1) * d == v + d;
    LeDiv(i + 1, n + d - 1, d);
  }

  /** The axis holds exactly the multiples of `d` in `[0, n)`. */
  lemma SampleAxisMembership(n: int, d: int, v: int)
    requires d > 0
    ensures v in SampleAxis(n, d) <==> 0 <= v < n && v % d == 0
  {
    var r := SampleAxis(n, d);
    if v in r {
      var i :| 0 <= i < |r| && r[i] == v;
      SampleAxisSound(n, d, i);
    }
    if 0 <= v < n && v % d == 0 {
      SampleAxisComplete(n, d, v);
    }
  }

  /** The points `(x, y)` for `y` in `ys` (outer) and `x` in `xs` (inner). */
  function GridRows(ys: seq<int>, xs: seq<int>): (pts: seq<(int, int)>)
    ensures |pts| == |ys| * |xs|
    ensures forall x, y :: (x, y) in pts <==> x in xs && y in ys
  {
    if |ys| == 0 then []
    else
      var row := seq(|xs|, j requires 0 <= j < |xs| => (xs[j], ys[0]));
      var rest := GridRows(ys[1..], xs);
      assert forall y :: y in ys <==> y == ys[0] || y in ys[1..];
      assert forall x, y :: (x, y) in row <==> x in xs && y == ys[0] by {
        forall x, y | x in xs && y == ys[0]
          ensures (x, y) in row
        {
          var j :| 0 <= j < |xs| && xs[j] == x;
          assert row[j] == (x, y);
        }
      }
      assert |ys| * |xs| == |xs| + (|ys| - 1) * |xs|;
      row + rest
  }

  /** The arrow sample points `(x, y)` of `visualize_flow`'s two loops, rows
      outermost; empty for a negative step. */
  function SampleGrid(h: int, w: int, d: int): (pts: seq<(int, int)>)
    requires d != 0
  {
    if d < 0 then [] else GridRows(SampleAxis(h, d), SampleAxis(w, d))
  }

  /** The sample points are exactly the multiples of the density inside the frame. */
  lemma SampleGridMembership(h: int, w: int, d: int, x: int, y: int)
    requires d > 0
    ensures (x, y) in SampleGrid(h, w, d) <==>
      0 <= x < w && 0 <= y < h && x % d == 0 && y % d == 0
  {
    SampleAxisMembership(h, d, y);
    SampleAxisMembership(w, d, x);
  }

  /** There are ceil(h/d) * ceil(w/d) sample points. */
  lemma SampleGridSize(h: nat, w: nat, d: int)
    requires d > 0
    ensures |SampleGrid(h, w, d)| == ((h + d - 1) / d) * ((w + d - 1) / d)
  {
    DivUnique(d - 1, d, 0, d - 1);
    var a, b := SampleAxis(h, d), SampleAxis(w, d);
    assert |a| == (h + d - 1) / d;
    assert |b| == (w + d - 1) / d;
    assert |GridRows(a, b)| == |a| * |b|;
  }

  /** A point inside the field. */
  predicate InField(field: Field, pt: (int, int))
  {
    0 <= pt.1 < |field| && 0 <= pt.0 < |field[pt.1]|
  }

  /** `cv2.arrowedLine(rgb, (x, y), (int(x + fx), int(y + fy)), (0, 255, 0), size)`. */
  function ArrowFrom(field: Field, x: int, y: int, size: int): Arrow
    requires InField(field, (x, y))
  {
    var v := field[y][x];
    Arrow(x, y, TruncReal(x as real + v.dx), TruncReal(y as real + v.dy), ArrowColor, size)
  }

  /** The arrows drawn at the sample points whose magnitude exceeds the
      threshold, in sampling order. */
  function ArrowsAt(field: Field, pts: seq<(int, int)>, mag: Vec -> real, threshold: real, size: int): (r: seq<Arrow>)
    requires forall i :: 0 <= i < |pts| ==> InField(field, pts[i])
    ensures forall a :: a in r ==>
      (a.x0, a.y0) in pts && InField(field, (a.x0, a.y0)) &&
      mag(field[a.y0][a.x0]) > threshold && a == ArrowFrom(field, a.x0, a.y0, size)
    ensures forall i :: 0 <= i < |pts| && InField(field, pts[i]) && mag(field[pts[i].1][pts[i].0]) > threshold ==>
      ArrowFrom(field, pts[i].0, pts[i].1, size) in r
  {
    if |pts| == 0 then []
    else
      var rest := ArrowsAt(field, pts[1..], mag, threshold, size);
      assert forall i :: 1 <= i < |pts| ==> pts[i] == pts[1..][i - 1];
      var x, y := pts[0].0, pts[0].1;
      assert InField(field, (x, y));
      if mag(field[y][x]) > threshold then [ArrowFrom(field, x, y, size)] + rest else rest
  }

  /** `rgb[mag < threshold] = 0`: the pixels blacked out. */
  function BlackoutMask(field: Field, mag: Vec -> real, threshold: real): (mask: seq<seq<bool>>)
    ensures HasShape(mask, |field|, Width(field))
    ensures forall y, x :: 0 <= y < |field| && 0 <= x < Width(field) ==>
      (mask[y][x] <==> mag(field[y][x]) < threshold)
  {
    var w := Width(field);
    seq(|field|, y requires 0 <= y < |field| => seq(w, x requires 0 <= x < w => mag(field[y][x]) < threshold))
  }

  lemma SampleGridInField(field: Field, d: int)
    requires d != 0
    ensures forall i :: 0 <= i < |SampleGrid(|field|, Width(field), d)| ==> InField(field, SampleGrid(|field|, Width(field), d)[i])
  {
    var g := SampleGrid(|field|, Width(field), d);
    forall i | 0 <= i < |g|
      ensures InField(field, g[i])
    {
      assert d > 0;
      SampleGridMembership(|field|, Width(field), d, g[i].0, g[i].1);
    }
  }

  /** The largest line thickness OpenCV draws (`MAX_THICKNESS`). */
  const MaxThickness := 32767

  /** OpenCV's `line` assertion on the thickness, as `str` of the `cv2.error`
      reports it after its version and source-location prefix. */
  const ThicknessMessage := "(-215:Assertion failed) 0 < thickness && thickness <= MAX_THICKNESS in function 'line'"

  predicate ValidThickness(size: int)
  {
    0 < size <= MaxThickness
  }

  /** The arrows `visualize_flow` draws, for a nonzero density. */
  function FlowArrows(field: Field, p: Params, mag: Vec -> real): (r: seq<Arrow>)
    requires p.arrowDensity != 0
    ensures p.arrowDensity < 0 ==> r == []
  {
    var pts := SampleGrid(|field|, Width(field), p.arrowDensity);
    SampleGridInField(field, p.arrowDensity);
    ArrowsAt(field, pts, mag, p.magThreshold, p.arrowSize)
  }

  /** `visualize_flow`: the HSV coding of the field, blacked out below the
      magnitude threshold, arrows at the sample points above it, and a blur
      when smoothing is on. The magnitude is `cv2.cartToPolar`'s, a
      parameter here. A zero arrow density makes `range` raise, and the
      first arrow drawn with a thickness outside [1, 32767] makes
      `cv2.arrowedLine` raise. */
  function VisualizeFlow(field: Field, p: Params, mag: Vec -> real): (r: Result<ColorImage>)
    ensures p.arrowDensity == 0 ==> r == Failure(RangeStepZeroMessage)
    ensures p.arrowDensity != 0 && ValidThickness(p.arrowSize) ==> r.Success?
    ensures r.Failure? && p.arrowDensity != 0 ==>
      r.message == ThicknessMessage && !ValidThickness(p.arrowSize) && |FlowArrows(field, p, mag)| > 0
    ensures r.Success? ==> (r.value.Blurred? <==> p.smooth)
  {
    if p.arrowDensity == 0 then Failure(RangeStepZeroMessage)
    else
      var arrows := FlowArrows(field, p, mag);
      if |arrows| > 0 && !ValidThickness(p.arrowSize) then Failure(ThicknessMessage)
      else
        var img := WithArrows(Blackout(FlowHsv(field), BlackoutMask(field, mag, p.magThreshold)), arrows);
        Success(if p.smooth then Blurred(img) else img)
  }

  /** Some sample point of a positive density has a magnitude above the
      threshold, so that `visualize_flow` draws an arrow there. */
  ghost predicate SomeSampleAbove(field: Field, d: int, mag: Vec -> real, threshold: real)
    requires d > 0
  {
    exists x, y :: 0 <= y < |field| && 0 <= x < Width(field) && x % d == 0 && y % d == 0 &&
      mag(field[y][x]) > threshold
  }

  /** With an invalid arrow size, the picture fails exactly when some
      sample point's magnitude exceeds the threshold, so that an arrow is
      drawn; with a negative density nothing is sampled and nothing fails. */
  lemma InvalidArrowSizeFailsWithArrows(field: Field, p: Params, mag: Vec -> real)
    requires p.arrowDensity != 0 && !ValidThickness(p.arrowSize)
    ensures VisualizeFlow(field, p, mag).Failure? <==>
      p.arrowDensity > 0 && SomeSampleAbove(field, p.arrowDensity, mag, p.magThreshold)
  {
    var arrows := FlowArrows(field, p, mag);
    var pts := SampleGrid(|field|, Width(field), p.arrowDensity);
    if p.arrowDensity > 0 {
      if |arrows| > 0 {
        var a := arrows[0];
        assert a in arrows;
        SampleGridMembership(|field|, Width(field), p.arrowDensity, a.x0, a.y0);
      }
      if SomeSampleAbove(field, p.arrowDensity, mag, p.magThreshold) {
        var x, y :| 0 <= y < |field| && 0 <= x < Width(field) && x % p.arrowDensity == 0 &&
          y % p.arrowDensity == 0 && mag(field[y][x]) > p.magThreshold;
        SampleGridMembership(|field|, Width(field), p.arrowDensity, x, y);
        var i :| 0 <= i < |pts| && pts[i] == (x, y);
        assert ArrowFrom(field, x, y, p.arrowSize) in arrows;
      }
    }
  }

  /** What a successful flow picture consists of: an arrow starts at a
      sample point exactly when the magnitude there exceeds the threshold, a
      pixel is blacked out exactly when its magnitude is below it, so no
      sample point is both, and one whose magnitude equals the threshold is
      neither. */
  lemma FlowPictureContents(field: Field, p: Params, mag: Vec -> real)
    requires p.arrowDensity > 0 && VisualizeFlow(field, p, mag).Success?
    ensures var img := Unblurred(VisualizeFlow(field, p, mag).value);
      && img.WithArrows? && img.base.Blackout? && img.base.base == FlowHsv(field)
      && HasShape(img.base.mask, |field|, Width(field))
      && (forall y, x :: 0 <= y < |field| && 0 <= x < Width(field) ==>
            (img.base.mask[y][x] <==> mag(field[y][x]) < p.magThreshold))
      && (forall a :: a in img.arrows ==>
            && InField(field, (a.x0, a.y0))
            && a.x0 % p.arrowDensity == 0 && a.y0 % p.arrowDensity == 0
            && mag(field[a.y0][a.x0]) > p.magThreshold
            && !img.base.mask[a.y0][a.x0]
            && a.color == ArrowColor && a.thickness == p.arrowSize)
      && (forall x, y ::
            (0 <= y < |field| && 0 <= x < Width(field) && x % p.arrowDensity == 0 &&
             y % p.arrowDensity == 0 && mag(field[y][x]) > p.magThreshold) ==>
            ArrowFrom(field, x, y, p.arrowSize) in img.arrows)
  {
    var img := Unblurred(VisualizeFlow(field, p, mag).value);
    var pts := SampleGrid(|field|, Width(field), p.arrowDensity);
    forall a | a in img.arrows
      ensures a.x0 % p.arrowDensity == 0 && a.y0 % p.arrowDensity == 0
    {
      SampleGridMembership(|field|, Width(field), p.arrowDensity, a.x0, a.y0);
    }
    forall x, y | 0 <= y < |field| && 0 <= x < Width(field) && x % p.arrowDensity == 0 &&
            y % p.arrowDensity == 0 && mag(field[y][x]) > p.magThreshold
      ensures ArrowFrom(field, x, y, p.arrowSize) in img.arrows
    {
      SampleGridMembership(|field|, Width(field), p.arrowDensity, x, y);
      var i :| 0 <= i < |pts| && pts[i] == (x, y);
    }
  }
}

=== FILE: worker.dfy ===
/** The processing worker's run: it reads frames consecutively from the
    capture, positioned at the start frame, for as many iterations as
    `range(start, end + 1, step)` has, and emits results, progress and at
    most one error as an ordered list of events.

    The capture is the sequence of frames it would return: read `k`
    succeeds exactly when `k < |frames|`, and the first failed read ends the
    loop. The OpenCV routines the run calls are the `Engine`'s functions. */
module Worker {
  import opened Base
  import opened Arith
  import opened Images
  import opened Config
  import opened Processors
  import opened Utils

  /** One signal of the worker: `frame_ready`, `progress` or `error`. */
  datatype Event<F> =
    | FrameReady(orig: F, viz: ColorImage)
    | Progress(percent: int)
    | Error(message: string)

  /** The events of a run, the number of read attempts, and whether the
      capture was released (`cap.release()` is skipped when an exception
      propagates). */
  datatype Outcome<F> = Outcome(events: seq<Event<F>>, attempts: nat, released: bool)

  /** The OpenCV routines of a run: BGR-to-gray conversion, the two flow
      estimators, and the per-vector magnitude of `cv2.cartToPolar`. */
  datatype Engine<-F> = Engine(gray: F -> Image, est: Estimators, magnitude: Vec -> real)

  const TraceTooLongMessage := "Trace length exceeds selected frame range"
  const ZeroDivisionMessage := "integer division or modulo by zero"

  // ---------------------------------------------------------------------
  // Python arithmetic

  /** `len(range(start, stop, step))`. */
  function RangeLen(start: int, stop: int, step: int): (n: nat)
    requires step != 0
    ensures step > 0 && start < stop ==> (n - 1) * step < stop - start <= n * step
    ensures step < 0 && start > stop ==> (n - 1) * -step < start - stop <= n * -step
    ensures (step > 0 && start >= stop) || (step < 0 && start <= stop) ==> n == 0
  {
    if step > 0 then
      if start < stop then
        var q := (stop - start + step - 1) / step;
        LeDiv(q, stop - start + step - 1, step);
        LeDiv(q + 1, stop - start + step - 1, step);
        q
      else 0
    else
      if start > stop then
        var q := (start - stop - step - 1) / -step;
        LeDiv(q, start - stop - step - 1, -step);
        LeDiv(q + 1, start - stop - step - 1, -step);
        q
      else 0
  }

  /** Python's `a // b`: the floor of the quotient, for either sign of `b`. */
  function FloorDiv(a: int, b: int): (q: int)
    requires b != 0
    ensures b > 0 ==> q * b <= a < q * b + b
    ensures b < 0 ==> q * b >= a > q * b + b
  {
    if b > 0 then
      LeDiv(a / b, a, b);
      LeDiv(a / b + 1, a, b);
      a / b
    else
      LeDiv((-a) / (-b), -a, -b);
      LeDiv((-a) / (-b) + 1, -a, -b);
      (-a) / (-b)
  }

  /** `total_windows`, the trace-mode progress denominator. */
  function TotalWindows(start: int, end: int, traceLength: int, step: int): (n: int)
    requires step != 0
    ensures n >= 0
    ensures step > 0 && (end - start + 1) - traceLength + 1 >= step ==>
      n * step <= (end - start + 1) - traceLength + 1 < n * step + step
    ensures step > 0 && (end - start + 1) - traceLength + 1 < step ==> n == 0
  {
    MaxInt(0, FloorDiv((end - start + 1) - traceLength + 1, step))
  }

  /** `total_pairs`, the flow-mode progress denominator. */
  function TotalPairs(start: int, end: int, step: int): (n: int)
    requires step != 0
    ensures n >= 0
    ensures step > 0 && end - start >= step ==> n * step <= end - start < n * step + step
    ensures step > 0 && end - start < step ==> n == 0
  {
    MaxInt(0, FloorDiv(end - start, step))
  }

  /** The number of windows a trace run emits when every read succeeds. */
  function WindowCount(start: int, end: int, traceLength: int, step: int): int
    requires step != 0
  {
    MaxInt(0, RangeLen(start, end + 1, step) - traceLength + 1)
  }

  /** `int((done / total) * 100)` in exact arithmetic: the floor of the percentage. */
  function Percent(done: nat, total: int): (r: int)
    requires total > 0
    ensures r * total <= done * 100 < r * total + total
    ensures r >= 0
  {
    LeDiv(done * 100 / total, done * 100, total);
    LeDiv(done * 100 / total + 1, done * 100, total);
    LeDiv(0, done * 100, total);
    done * 100 / total
  }

  // ---------------------------------------------------------------------
  // Events

  /** The signals after the `done`-th result: the frame and its picture, and
      the percentage when the denominator is positive. */
  function Emit<F>(frame: F, viz: ColorImage, done: nat, total: int): (evs: seq<Event<F>>)
    ensures |evs| == (if total > 0 then 2 else 1)
    ensures evs[0] == FrameReady(frame, viz)
    ensures total > 0 ==> evs[1] == Progress(Percent(done, total))
    ensures NoError(evs)
  {
    [FrameReady(frame, viz)] + (if total > 0 then [Progress(Percent(done, total))] else [])
  }

  /** No event is an error. */
  predicate NoError<F>(evs: seq<Event<F>>)
  {
    forall i :: 0 <= i < |evs| ==> !evs[i].Error?
  }

  /** At most the last event is an error. */
  predicate ErrorIsLast<F>(evs: seq<Event<F>>)
  {
    forall i :: 0 <= i < |evs| - 1 ==> !evs[i].Error?
  }

  /** A run releases the capture exactly when no error occurs, and an error,
      if any, is its last event. */
  predicate WellFormed<F>(o: Outcome<F>)
  {
    && (o.released <==> NoError(o.events))
    && ErrorIsLast(o.events)
    && (!o.released ==> |o.events| > 0 && o.events[|o.events| - 1].Error?)
  }

  /** The outcome of an exception raised at read attempt `attempts`: the
      error is the one event, and the capture stays open. */
  function Fail<F>(msg: string, attempts: nat): (o: Outcome<F>)
    ensures o.events == [Error(msg)] && o.attempts == attempts && !o.released
  {
    Outcome([Error(msg)], attempts, false)
  }

  /** Signals emitted before the rest of a run. */
  function Prepend<F>(evs: seq<Event<F>>, o: Outcome<F>): (r: Outcome<F>)
    ensures r.events == evs + o.events && r.attempts == o.attempts && r.released == o.released
  {
    Outcome(evs + o.events, o.attempts, o.released)
  }

  /** Error-free signals before a well-formed run leave it well-formed. */
  lemma PrependWellFormed<F>(evs: seq<Event<F>>, o: Outcome<F>)
    requires NoError(evs) && WellFormed(o)
    ensures WellFormed(Prepend(evs, o))
  {
    var r := Prepend(evs, o);
    assert forall i :: |evs| <= i < |r.events| ==> r.events[i] == o.events[i - |evs|];
    assert forall i :: 0 <= i < |evs| ==> r.events[i] == evs[i];
    assert forall i :: 0 <= i < |o.events| ==> r.events[|evs| + i] == o.events[i];
  }

  lemma FailWellFormed<F>(msg: string, attempts: nat)
    ensures WellFormed(Fail<F>(msg, attempts))
  {
    assert Fail<F>(msg, attempts).events[0].Error?;
  }

  // ---------------------------------------------------------------------
  // The loops

  /** `frame_buffer.append(x)` followed by one `pop(0)` when it grew past
      the length. */
  function Push(buf: seq<Image>, x: Image, traceLength: int): (b: seq<Image>)
    ensures |b| == if |buf| + 1 > traceLength then |buf| else |buf| + 1
  {
    var grown := buf + [x];
    if |grown| > traceLength then grown[1..] else grown
  }

  /** Pushing keeps the newest elements: one fewer than there were plus `x`
      exactly when the buffer would outgrow the length. */
  lemma PushKeepsNewest(buf: seq<Image>, x: Image, traceLength: int)
    ensures var b := Push(buf, x, traceLength);
      forall j :: 0 <= j < |b| ==> b[j] == (buf + [x])[|buf| + 1 - |b| + j]
  {
    forall j | 0 <= j < |Push(buf, x, traceLength)|
      ensures Push(buf, x, traceLength)[j] == (buf + [x])[|buf| + 1 - |Push(buf, x, traceLength)| + j]
    {
      PushAt(buf, x, traceLength, j);
    }
  }

  lemma PushAt(buf: seq<Image>, x: Image, traceLength: int, j: int)
    requires 0 <= j < |Push(buf, x, traceLength)|
    ensures Push(buf, x, traceLength)[j] == (buf + [x])[|buf| + 1 - |Push(buf, x, traceLength)| + j]
  {
  }

  /** The read attempts of a loop that runs to completion from read `k` with
      `left` iterations to go: all of them, or up to and including the first
      failed read. */
  function CompletedReads(frameCount: nat, k: nat, left: nat): nat
  {
    if k + left <= frameCount then k + left else frameCount + 1
  }

  /** One trace-mode window: `np.stack`, then `compute_flowtrace` and
      `visualize_flowtrace`. Stacking raises for frames of different shapes. */
  function WindowStep(window: seq<Image>, p: Params): (r: Result<ColorImage>)
    ensures r.Success? <==> SameShape(window)
    ensures !SameShape(window) ==> r == Failure(Stack(window).message)
    ensures SameShape(window) ==>
      r == Success(VisualizeTrace(ComputeTrace(window, p.invert, p.bgSubtract), p.cmap, p.smooth))
  {
    match Stack(window)
    case Failure(msg) => Failure(msg)
    case Success(s) => Success(VisualizeTrace(ComputeTrace(s, p.invert, p.bgSubtract), p.cmap, p.smooth))
  }

  /** The trace step of a run's parameters, as one function of the window. */
  function TraceStep(p: Params): (window: seq<Image> -> Result<ColorImage>)
    ensures forall w :: window(w) == WindowStep(w, p)
  {
    w => WindowStep(w, p)
  }

  /** The trace-mode loop from read `k`, with `left` iterations to go, the
      window buffer `buf`, `processed` windows emitted so far, the progress
      denominator `total` and the trace length `L`; `window` handles a full
      buffer. */
  function TraceLoop<F>(frames: seq<F>, k: nat, left: nat, buf: seq<Image>, processed: nat, total: int,
                        L: int, e: Engine<F>, window: seq<Image> -> Result<ColorImage>): (o: Outcome<F>)
    requires k <= |frames|
    ensures k <= o.attempts <= k + left
    ensures o.released ==> o.attempts == CompletedReads(|frames|, k, left)
    decreases left
  {
    if left == 0 then Outcome([], k, true)
    else if k == |frames| then Outcome([], k + 1, true)
    else
      var b := Push(buf, e.gray(frames[k]), L);
      if |b| == L then
        match window(b)
        case Failure(msg) => Fail(msg, k + 1)
        case Success(viz) =>
          Prepend(Emit(frames[k], viz, processed + 1, total),
                  TraceLoop(frames, k + 1, left - 1, b, processed + 1, total, L, e, window))
      else TraceLoop(frames, k + 1, left - 1, b, processed, total, L, e, window)
  }

  /** One flow-mode pair: `compute_flow` and then `visualize_flow`, either of which may raise. */
  function FlowStep<F>(prev: Image, next: Image, p: Params, e: Engine<F>): (r: Result<ColorImage>)
    ensures ComputeFlow(prev, next, p, e.est).Failure? ==> r == Failure(ComputeFlow(prev, next, p, e.est).message)
    ensures ComputeFlow(prev, next, p, e.est).Success? ==>
      r == VisualizeFlow(ComputeFlow(prev, next, p, e.est).value, p, e.magnitude)
  {
    match ComputeFlow(prev, next, p, e.est)
    case Failure(msg) => Failure(msg)
    case Success(field) => VisualizeFlow(field, p, e.magnitude)
  }

  /** The flow step of a run's parameters and routines, as one function of the two frames. */
  function PairStep<F>(p: Params, e: Engine<F>): (pair: (Image, Image) -> Result<ColorImage>)
    ensures forall a, b :: pair(a, b) == FlowStep(a, b, p, e)
  {
    (a: Image, b: Image) => FlowStep(a, b, p, e)
  }

  /** The flow-mode loop from read `k`, with `left` iterations to go, the
      previous grayscale frame if there is one, `processed` pairs emitted so
      far and the progress denominator `total`; `pair` handles two
      consecutive grayscale frames. */
  function FlowLoop<F>(frames: seq<F>, k: nat, left: nat, prev: Option<Image>, processed: nat, total: int,
                       e: Engine<F>, pair: (Image, Image) -> Result<ColorImage>): (o: Outcome<F>)
    requires k <= |frames|
    ensures k <= o.attempts <= k + left
    ensures o.released ==> o.attempts == CompletedReads(|frames|, k, left)
    decreases left
  {
    if left == 0 then Outcome([], k, true)
    else if k == |frames| then Outcome([], k + 1, true)
    else
      var g := e.gray(frames[k]);
      match prev
      case None => FlowLoop(frames, k + 1, left - 1, Some(g), processed, total, e, pair)
      case Some(pg) =>
        match pair(pg, g)
        case Failure(msg) => Fail(msg, k + 1)
        case Success(viz) =>
          Prepend(Emit(frames[k], viz, processed + 1, total),
                  FlowLoop(frames, k + 1, left - 1, Some(g), processed + 1, total, e, pair))
  }

  /** `FlowProcessorThread.run` with the trace-mode denominator either as
      written (`total_windows`) or corrected (`WindowCount`). */
  function Drive<F>(frames: seq<F>, p: Params, e: Engine<F>, corrected: bool): (o: Outcome<F>)
    ensures p.algorithm == FlowTraceName && p.winSize > p.endFrame - p.startFrame + 1 ==>
      o == Outcome([Error(TraceTooLongMessage)], 0, false)
    ensures p.step == 0 && !(p.algorithm == FlowTraceName && p.winSize > p.endFrame - p.startFrame + 1) ==>
      o == Outcome([Error(ZeroDivisionMessage)], 0, false)
    ensures p.step != 0 ==> o.attempts <= RangeLen(p.startFrame, p.endFrame + 1, p.step)
  {
    var start, end, step := p.startFrame, p.endFrame, p.step;
    if p.algorithm == FlowTraceName then
      if p.winSize > end - start + 1 then Fail(TraceTooLongMessage, 0)
      else if step == 0 then Fail(ZeroDivisionMessage, 0)
      else
        var total := if corrected then WindowCount(start, end, p.winSize, step)
                     else TotalWindows(start, end, p.winSize, step);
        TraceLoop(frames, 0, RangeLen(start, end + 1, step), [], 0, total, p.winSize, e, TraceStep(p))
    else
      if step == 0 then Fail(ZeroDivisionMessage, 0)
      else FlowLoop(frames, 0, RangeLen(start, end + 1, step), None, 0, TotalPairs(start, end, step), e, PairStep(p, e))
  }

  /** `FlowProcessorThread.run` as written: the capture is released exactly
      when no error is emitted, an error is the last signal, and no more
      frames are read than the frame range holds. */
  function Run<F>(frames: seq<F>, p: Params, e: Engine<F>): (o: Outcome<F>)
    ensures WellFormed(o)
    ensures p.step != 0 ==> o.attempts <= RangeLen(p.startFrame, p.endFrame + 1, p.step)
  {
    RunWellFormed(frames, p, e, false);
    Drive(frames, p, e, false)
  }

  /** The run with trace-mode progress measured against the windows actually emitted. */
  function RunCorrected<F>(frames: seq<F>, p: Params, e: Engine<F>): Outcome<F>
  {
    Drive(frames, p, e, true)
  }

  /** A trace run with valid settings is its loop from the first read with an empty buffer. */
  lemma DriveTrace<F>(frames: seq<F>, p: Params, e: Engine<F>, corrected: bool)
    requires p.algorithm == FlowTraceName && p.winSize <= p.endFrame - p.startFrame + 1 && p.step != 0
    ensures Drive(frames, p, e, corrected) ==
      TraceLoop(frames, 0, RangeLen(p.startFrame, p.endFrame + 1, p.step), [], 0,
                if corrected then WindowCount(p.startFrame, p.endFrame, p.winSize, p.step)
                else TotalWindows(p.startFrame, p.endFrame, p.winSize, p.step),
                p.winSize, e, TraceStep(p))
  {
  }

  /** A flow run with a nonzero step is its loop from the first read with no previous frame. */
  lemma DriveFlow<F>(frames: seq<F>, p: Params, e: Engine<F>, corrected: bool)
    requires p.algorithm != FlowTraceName && p.step != 0
    ensures Drive(frames, p, e, corrected) ==
      FlowLoop(frames, 0, RangeLen(p.startFrame, p.endFrame + 1, p.step), None, 0,
               TotalPairs(p.startFrame, p.endFrame, p.step), e, PairStep(p, e))
  {
  }

  // ---------------------------------------------------------------------
  // Errors end a run

  lemma {:induction false} TraceLoopWellFormed<F>(frames: seq<F>, k: nat, left: nat, buf: seq<Image>, processed: nat,
                                                 total: int, L: int, e: Engine<F>, window: seq<Image> -> Result<ColorImage>)
    requires k <= |frames|
    ensures WellFormed(TraceLoop(frames, k, left, buf, processed, total, L, e, window))
    decreases left
  {
    var o := TraceLoop(frames, k, left, buf, processed, total, L, e, window);
    if left == 0 || k == |frames| {
      assert o.events == [];
    } else {
      var b := Push(buf, e.gray(frames[k]), L);
      if |b| == L {
        match window(b)
        case Failure(msg) =>
          FailWellFormed<F>(msg, k + 1);
        case Success(viz) =>
          TraceLoopWellFormed(frames, k + 1, left - 1, b, processed + 1, total, L, e, window);
          PrependWellFormed(Emit(frames[k], viz, processed + 1, total),
                            TraceLoop(frames, k + 1, left - 1, b, processed + 1, total, L, e, window));
      } else {
        TraceLoopWellFormed(frames, k + 1, left - 1, b, processed, total, L, e, window);
      }
    }
  }

  /** A trace loop that keeps the capture open has attempted a read. */
  lemma {:induction false} TraceLoopFailsAfterRead<F>(frames: seq<F>, k: nat, left: nat, buf: seq<Image>, processed: nat,
                                                     total: int, L: int, e: Engine<F>, window: seq<Image> -> Result<ColorImage>)
    requires k <= |frames|
    ensures var o := TraceLoop(frames, k, left, buf, processed, total, L, e, window); !o.released ==> o.attempts > k
    decreases left
  {
    if left > 0 && k < |frames| {
      var b := Push(buf, e.gray(frames[k]), L);
      var c := if |b| == L && window(b).Success? then processed + 1 else processed;
      TraceLoopFailsAfterRead(frames, k + 1, left - 1, b, c, total, L, e, window);
    }
  }

  lemma {:induction false} FlowLoopWellFormed<F>(frames: seq<F>, k: nat, left: nat, prev: Option<Image>, processed: nat,
                                                total: int, e: Engine<F>, pair: (Image, Image) -> Result<ColorImage>)
    requires k <= |frames|
    ensures WellFormed(FlowLoop(frames, k, left, prev, processed, total, e, pair))
    decreases left
  {
    var o := FlowLoop(frames, k, left, prev, processed, total, e, pair);
    if left == 0 || k == |frames| {
      assert o.events == [];
    } else {
      var g := e.gray(frames[k]);
      match prev
      case None =>
        FlowLoopWellFormed(frames, k + 1, left - 1, Some(g), processed, total, e, pair);
      case Some(pg) =>
        match pair(pg, g)
        case Failure(msg) =>
          FailWellFormed<F>(msg, k + 1);
        case Success(viz) =>
          FlowLoopWellFormed(frames, k + 1, left - 1, Some(g), processed + 1, total, e, pair);
          PrependWellFormed(Emit(frames[k], viz, processed + 1, total),
                            FlowLoop(frames, k + 1, left - 1, Some(g), processed + 1, total, e, pair));
    }
  }

  /** A flow loop that keeps the capture open has attempted a read. */
  lemma {:induction false} FlowLoopFailsAfterRead<F>(frames: seq<F>, k: nat, left: nat, prev: Option<Image>, processed: nat,
                                                    total: int, e: Engine<F>, pair: (Image, Image) -> Result<ColorImage>)
    requires k <= |frames|
    ensures var o := FlowLoop(frames, k, left, prev, processed, total, e, pair); !o.released ==> o.attempts > k
    decreases left
  {
    if left > 0 && k < |frames| {
      var g := e.gray(frames[k]);
      var c := if prev.Some? && pair(prev.value, g).Success? then processed + 1 else processed;
      FlowLoopFailsAfterRead(frames, k + 1, left - 1, Some(g), c, total, e, pair);
    }
  }

  /** Every run, as written or corrected, releases the capture exactly when
      no error occurs, and an error ends its events. */
  lemma RunWellFormed<F>(frames: seq<F>, p: Params, e: Engine<F>, corrected: bool)
    ensures WellFormed(Drive(frames, p, e, corrected))
  {
    var start, end, step := p.startFrame, p.endFrame, p.step;
    if p.algorithm == FlowTraceName {
      if p.winSize > end - start + 1 {
        FailWellFormed<F>(TraceTooLongMessage, 0);
      } else if step == 0 {
        FailWellFormed<F>(ZeroDivisionMessage, 0);
      } else {
        var total := if corrected then WindowCount(start, end, p.winSize, step)
                     else TotalWindows(start, end, p.winSize, step);
        TraceLoopWellFormed(frames, 0, RangeLen(start, end + 1, step), [], 0, total, p.winSize, e, TraceStep(p));
      }
    } else if step == 0 {
      FailWellFormed<F>(ZeroDivisionMessage, 0);
    } else {
      FlowLoopWellFormed(frames, 0, RangeLen(start, end + 1, step), None, 0, TotalPairs(start, end, step), e, PairStep(p, e));
    }
  }

  // ---------------------------------------------------------------------
  // Reference: what a run reports

  /** The events for the results `rs`, numbered from `done + 1`. */
  function Report<F>(rs: seq<(F, ColorImage)>, done: nat, total: int): seq<Event<F>>
  {
    if |rs| == 0 then [] else Emit(rs[0].0, rs[0].1, done + 1, total) + Report(rs[1..], done + 1, total)
  }

  lemma {:induction false} ReportAppend<F>(a: seq<(F, ColorImage)>, b: seq<(F, ColorImage)>, done: nat, total: int)
    ensures Report(a + b, done, total) == Report(a, done, total) + Report(b, done + |a|, total)
    decreases |a|
  {
    if |a| == 0 {
      assert a + b == b;
    } else {
      assert (a + b)[1..] == a[1..] + b;
      ReportAppend(a[1..], b, done + 1, total);
    }
  }

  /** All grayscale frames have one shape, as the frames of one video do. */
  predicate Uniform<F>(frames: seq<F>, e: Engine<F>)
  {
    forall i :: 0 <= i < |frames| ==>
      |e.gray(frames[i])| == |e.gray(frames[0])| && Width(e.gray(frames[i])) == Width(e.gray(frames[0]))
  }

  /** The window buffer after `k` reads: each read's grayscale frame pushed in turn. */
  function Buffer<F>(frames: seq<F>, e: Engine<F>, k: nat, L: int): (buf: seq<Image>)
    requires 1 <= L && k <= |frames|
    ensures |buf| == MinInt(k, L)
    decreases k
  {
    if k == 0 then [] else Push(Buffer(frames, e, k - 1, L), e.gray(frames[k - 1]), L)
  }

  lemma {:induction false} BufferAt<F>(frames: seq<F>, e: Engine<F>, k: nat, L: int, j: int)
    requires 1 <= L && k <= |frames| && 0 <= j < MinInt(k, L)
    ensures Buffer(frames, e, k, L)[j] == e.gray(frames[k - MinInt(k, L) + j])
    decreases k
  {
    var prev := Buffer(frames, e, k - 1, L);
    var x := e.gray(frames[k - 1]);
    var b := Buffer(frames, e, k, L);
    assert b == Push(prev, x, L);
    var i := |prev| + 1 - |b| + j;
    PushAt(prev, x, L, j);
    if i < |prev| {
      BufferAt(frames, e, k - 1, L, i);
      assert (prev + [x])[i] == prev[i];
    } else {
      assert (prev + [x])[i] == x;
    }
  }

  /** After `k` reads the buffer holds the grayscale versions of the last
      `min(k, L)` frames, oldest first. */
  lemma BufferContents<F>(frames: seq<F>, e: Engine<F>, k: nat, L: int)
    requires 1 <= L && k <= |frames|
    ensures forall j :: 0 <= j < |Buffer(frames, e, k, L)| ==>
      Buffer(frames, e, k, L)[j] == e.gray(frames[k - |Buffer(frames, e, k, L)| + j])
  {
    forall j | 0 <= j < |Buffer(frames, e, k, L)|
      ensures Buffer(frames, e, k, L)[j] == e.gray(frames[k - |Buffer(frames, e, k, L)| + j])
    {
      BufferAt(frames, e, k, L, j);
    }
  }

  /** The trace step on the window of `L` reads ending at read `i`. */
  function WindowAt<F>(frames: seq<F>, e: Engine<F>, L: int, window: seq<Image> -> Result<ColorImage>, i: nat)
    : Result<ColorImage>
    requires 1 <= L && i < |frames|
  {
    window(Buffer(frames, e, i + 1, L))
  }

  /** Every full window among the first `n` reads goes through the trace step. */
  predicate TraceSucceeds<F>(frames: seq<F>, e: Engine<F>, L: int, window: seq<Image> -> Result<ColorImage>, n: nat)
    requires 1 <= L && n <= |frames|
  {
    forall i: nat :: L - 1 <= i < n ==> WindowAt(frames, e, L, window, i).Success?
  }

  /** With frames of one shape, every full window stacks, so the trace step of
      any parameters goes through. */
  lemma UniformWindowsStack<F>(frames: seq<F>, e: Engine<F>, p: Params, n: nat)
    requires 1 <= p.winSize && n <= |frames| && Uniform(frames, e)
    ensures TraceSucceeds(frames, e, p.winSize, TraceStep(p), n)
  {
    forall i: nat | p.winSize - 1 <= i < n
      ensures WindowAt(frames, e, p.winSize, TraceStep(p), i).Success?
    {
      var w := Buffer(frames, e, i + 1, p.winSize);
      BufferContents(frames, e, i + 1, p.winSize);
      assert w[0] == e.gray(frames[i + 1 - p.winSize]);
      assert SameShape(w);
    }
  }

  /** The trace results of the first `n` reads: one per full window, paired
      with the window's newest frame. */
  function TraceResults<F>(frames: seq<F>, e: Engine<F>, L: int, window: seq<Image> -> Result<ColorImage>, n: nat)
    : (rs: seq<(F, ColorImage)>)
    requires 1 <= L && n <= |frames| && TraceSucceeds(frames, e, L, window, n)
    ensures |rs| == MaxInt(0, n - L + 1)
    ensures forall j :: 0 <= j < |rs| ==> rs[j] == (frames[j + L - 1], WindowAt(frames, e, L, window, j + L - 1).value)
  {
    seq(MaxInt(0, n - L + 1), j requires 0 <= j < MaxInt(0, n - L + 1) =>
      (frames[j + L - 1], WindowAt(frames, e, L, window, j + L - 1).value))
  }

  lemma TraceSucceedsPrefix<F>(frames: seq<F>, e: Engine<F>, L: int, window: seq<Image> -> Result<ColorImage>, n: nat, m: nat)
    requires 1 <= L && m <= n <= |frames| && TraceSucceeds(frames, e, L, window, n)
    ensures TraceSucceeds(frames, e, L, window, m)
  {
  }

  lemma TraceResultsNext<F>(frames: seq<F>, e: Engine<F>, L: int, window: seq<Image> -> Result<ColorImage>, k: nat)
    requires 1 <= L && k < |frames| && TraceSucceeds(frames, e, L, window, k + 1)
    ensures TraceSucceeds(frames, e, L, window, k)
    ensures TraceResults(frames, e, L, window, k + 1) == TraceResults(frames, e, L, window, k) +
      (if k + 1 >= L then [(frames[k], WindowAt(frames, e, L, window, k).value)] else [])
  {
    TraceSucceedsPrefix(frames, e, L, window, k + 1, k);
  }

  /** The trace loop after `k` reads of a run whose reads and windows all
      succeed so far: the buffer holds the newest frames and one window has
      been emitted per full buffer. */
  function TraceLoopAt<F>(frames: seq<F>, e: Engine<F>, L: int, window: seq<Image> -> Result<ColorImage>,
                          total: int, k: nat, left: nat): Outcome<F>
    requires 1 <= L && k <= |frames|
  {
    TraceLoop(frames, k, left, Buffer(frames, e, k, L), MaxInt(0, k - L + 1), total, L, e, window)
  }

  /** One iteration of the trace loop with a read that succeeds and a full
      window, if any, that goes through. */
  lemma TraceLoopUnfold<F>(frames: seq<F>, e: Engine<F>, L: int, window: seq<Image> -> Result<ColorImage>,
                           total: int, k: nat, left: nat)
    requires 1 <= L && k < |frames| && 0 < left
    requires k + 1 >= L ==> WindowAt(frames, e, L, window, k).Success?
    ensures TraceLoopAt(frames, e, L, window, total, k, left) ==
      if k + 1 >= L then
        Prepend(Emit(frames[k], WindowAt(frames, e, L, window, k).value, k - L + 2, total),
                TraceLoopAt(frames, e, L, window, total, k + 1, left - 1))
      else TraceLoopAt(frames, e, L, window, total, k + 1, left - 1)
  {
    assert Push(Buffer(frames, e, k, L), e.gray(frames[k]), L) == Buffer(frames, e, k + 1, L);
  }

  /** A loop with no iterations or no frames left releases the capture and emits nothing. */
  lemma TraceLoopAtEnd<F>(frames: seq<F>, e: Engine<F>, L: int, window: seq<Image> -> Result<ColorImage>,
                          total: int, k: nat, left: nat)
    requires 1 <= L && k <= |frames| && (left == 0 || k == |frames|)
    ensures TraceLoopAt(frames, e, L, window, total, k, left).released
    ensures TraceLoopAt(frames, e, L, window, total, k, left).events == []
  {
  }

  /** The trace loop releases the capture when every full window it meets goes through. */
  lemma {:induction false} TraceLoopReleases<F>(frames: seq<F>, e: Engine<F>, L: int, window: seq<Image> -> Result<ColorImage>,
                                               total: int, k: nat, left: nat)
    requires 1 <= L && k <= |frames| && TraceSucceeds(frames, e, L, window, MinInt(k + left, |frames|))
    ensures TraceLoopAt(frames, e, L, window, total, k, left).released
    decreases left
  {
    if left == 0 || k == |frames| {
      TraceLoopAtEnd(frames, e, L, window, total, k, left);
    } else {
      TraceLoopUnfold(frames, e, L, window, total, k, left);
      TraceLoopReleases(frames, e, L, window, total, k + 1, left - 1);
    }
  }

  /** A read that completes a window moves that window from the loop's events into the results so far. */
  lemma TraceLoopStepEmits<F>(frames: seq<F>, e: Engine<F>, L: int, window: seq<Image> -> Result<ColorImage>,
                              total: int, k: nat, left: nat)
    requires 1 <= L && L <= k + 1 && k < |frames| && 0 < left && TraceSucceeds(frames, e, L, window, k + 1)
    ensures TraceSucceeds(frames, e, L, window, k)
    ensures Report(TraceResults(frames, e, L, window, k), 0, total) + TraceLoopAt(frames, e, L, window, total, k, left).events ==
            Report(TraceResults(frames, e, L, window, k + 1), 0, total) + TraceLoopAt(frames, e, L, window, total, k + 1, left - 1).events
  {
    TraceResultsNext(frames, e, L, window, k);
    TraceLoopUnfold(frames, e, L, window, total, k, left);
    var before := TraceResults(frames, e, L, window, k);
    var r := (frames[k], WindowAt(frames, e, L, window, k).value);
    ReportAppend(before, [r], 0, total);
    assert Report([r], |before|, total) == Emit(r.0, r.1, |before| + 1, total);
  }

  /** A read that leaves the buffer short of a window changes neither the results nor the loop's events. */
  lemma TraceLoopStepFills<F>(frames: seq<F>, e: Engine<F>, L: int, window: seq<Image> -> Result<ColorImage>,
                              total: int, k: nat, left: nat)
    requires 1 <= L && k + 1 < L && k < |frames| && 0 < left && TraceSucceeds(frames, e, L, window, k + 1)
    ensures TraceSucceeds(frames, e, L, window, k)
    ensures TraceResults(frames, e, L, window, k + 1) == TraceResults(frames, e, L, window, k)
    ensures TraceLoopAt(frames, e, L, window, total, k, left) == TraceLoopAt(frames, e, L, window, total, k + 1, left - 1)
  {
    TraceResultsNext(frames, e, L, window, k);
    TraceLoopUnfold(frames, e, L, window, total, k, left);
  }

  /** One successful read moves the window it completes, if any, from the
      loop's events into the results so far. */
  lemma TraceLoopStep<F>(frames: seq<F>, e: Engine<F>, L: int, window: seq<Image> -> Result<ColorImage>,
                         total: int, k: nat, left: nat)
    requires 1 <= L && k < |frames| && 0 < left && TraceSucceeds(frames, e, L, window, k + 1)
    ensures TraceSucceeds(frames, e, L, window, k)
    ensures Report(TraceResults(frames, e, L, window, k), 0, total) + TraceLoopAt(frames, e, L, window, total, k, left).events ==
            Report(TraceResults(frames, e, L, window, k + 1), 0, total) + TraceLoopAt(frames, e, L, window, total, k + 1, left - 1).events
  {
    if k + 1 >= L {
      TraceLoopStepEmits(frames, e, L, window, total, k, left);
    } else {
      TraceLoopStepFills(frames, e, L, window, total, k, left);
    }
  }

  /** The trace loop from read `k`, with `left` iterations to go, adds to
      the results of the first `k` reads exactly the results up to its last read. */
  ghost predicate ReportsFrom<F>(frames: seq<F>, e: Engine<F>, L: int, window: seq<Image> -> Result<ColorImage>,
                           total: int, k: nat, left: nat)
    requires 1 <= L && k <= |frames| && TraceSucceeds(frames, e, L, window, MinInt(k + left, |frames|))
  {
    && TraceSucceeds(frames, e, L, window, k)
    && Report(TraceResults(frames, e, L, window, k), 0, total) + TraceLoopAt(frames, e, L, window, total, k, left).events ==
       Report(TraceResults(frames, e, L, window, MinInt(k + left, |frames|)), 0, total)
  }

  /** A loop with nothing left to read adds nothing to the results so far. */
  lemma TraceLoopReportsEnd<F>(frames: seq<F>, e: Engine<F>, L: int, window: seq<Image> -> Result<ColorImage>,
                               total: int, k: nat, left: nat)
    requires 1 <= L && k <= |frames| && (left == 0 || k == |frames|) && TraceSucceeds(frames, e, L, window, k)
    ensures MinInt(k + left, |frames|) == k
    ensures ReportsFrom(frames, e, L, window, total, k, left)
  {
    TraceLoopAtEnd(frames, e, L, window, total, k, left);
    var done := Report(TraceResults(frames, e, L, window, k), 0, total);
    assert done + [] == done;
  }

  /** The inductive step of the trace loop's report: what holds from read
      `k + 1` holds from read `k`. */
  lemma TraceLoopReportsNext<F>(frames: seq<F>, e: Engine<F>, L: int, window: seq<Image> -> Result<ColorImage>,
                                total: int, k: nat, left: nat)
    requires 1 <= L && k < |frames| && 0 < left && TraceSucceeds(frames, e, L, window, MinInt(k + left, |frames|))
    requires ReportsFrom(frames, e, L, window, total, k + 1, left - 1)
    ensures ReportsFrom(frames, e, L, window, total, k, left)
  {
    TraceLoopStep(frames, e, L, window, total, k, left);
  }

  lemma {:induction false} TraceLoopReportsFrom<F>(frames: seq<F>, e: Engine<F>, L: int, window: seq<Image> -> Result<ColorImage>,
                                                  total: int, k: nat, left: nat)
    requires 1 <= L && k <= |frames| && TraceSucceeds(frames, e, L, window, MinInt(k + left, |frames|))
    ensures ReportsFrom(frames, e, L, window, total, k, left)
    decreases left
  {
    if left == 0 || k == |frames| {
      TraceLoopReportsEnd(frames, e, L, window, total, k, left);
    } else {
      TraceLoopReportsFrom(frames, e, L, window, total, k + 1, left - 1);
      TraceLoopReportsNext(frames, e, L, window, total, k, left);
    }
  }

  /** The trace loop, from any read `k` with the buffer and count a run has
      there, reports the windows of the reads it performs. */
  lemma TraceLoopReports<F>(frames: seq<F>, e: Engine<F>, L: int, window: seq<Image> -> Result<ColorImage>,
                            total: int, k: nat, left: nat)
    requires 1 <= L && k <= |frames| && TraceSucceeds(frames, e, L, window, MinInt(k + left, |frames|))
    ensures TraceSucceeds(frames, e, L, window, k)
    ensures Report(TraceResults(frames, e, L, window, k), 0, total) + TraceLoopAt(frames, e, L, window, total, k, left).events ==
            Report(TraceResults(frames, e, L, window, MinInt(k + left, |frames|)), 0, total)
  {
    TraceLoopReportsFrom(frames, e, L, window, total, k, left);
  }

  /** A trace run whose frames share one shape emits, in order, one result
      per full window of the frames it reads, each paired with the newest
      frame of its window and followed by its progress; it releases the
      capture after all iterations or the first failed read. */
  lemma TraceRunReports<F>(frames: seq<F>, p: Params, e: Engine<F>, corrected: bool)
    requires p.algorithm == FlowTraceName && 1 <= p.winSize <= p.endFrame - p.startFrame + 1 && p.step != 0
    requires Uniform(frames, e)
    ensures var n := MinInt(RangeLen(p.startFrame, p.endFrame + 1, p.step), |frames|);
      var total := if corrected then WindowCount(p.startFrame, p.endFrame, p.winSize, p.step)
                   else TotalWindows(p.startFrame, p.endFrame, p.winSize, p.step);
      var o := Drive(frames, p, e, corrected);
      && TraceSucceeds(frames, e, p.winSize, TraceStep(p), n)
      && o.events == Report(TraceResults(frames, e, p.winSize, TraceStep(p), n), 0, total)
      && o.released
      && o.attempts == CompletedReads(|frames|, 0, RangeLen(p.startFrame, p.endFrame + 1, p.step))
  {
    var total := if corrected then WindowCount(p.startFrame, p.endFrame, p.winSize, p.step)
                 else TotalWindows(p.startFrame, p.endFrame, p.winSize, p.step);
    var left := RangeLen(p.startFrame, p.endFrame + 1, p.step);
    var window := TraceStep(p);
    UniformWindowsStack(frames, e, p, MinInt(left, |frames|));
    TraceLoopReports(frames, e, p.winSize, window, total, 0, left);
    TraceLoopReleases(frames, e, p.winSize, window, total, 0, left);
    DriveTrace(frames, p, e, corrected);
    assert Buffer(frames, e, 0, p.winSize) == [];
    assert TraceResults(frames, e, p.winSize, window, 0) == [];
  }

  /** The flow step on reads `i` and `i + 1`. */
  function PairAt<F>(frames: seq<F>, e: Engine<F>, pair: (Image, Image) -> Result<ColorImage>, i: nat): Result<ColorImage>
    requires i + 1 < |frames|
  {
    pair(e.gray(frames[i]), e.gray(frames[i + 1]))
  }

  /** Every pair among the first `n` reads goes through the flow step. */
  predicate FlowSucceeds<F>(frames: seq<F>, e: Engine<F>, pair: (Image, Image) -> Result<ColorImage>, n: nat)
    requires n <= |frames|
  {
    forall i: nat :: i < n - 1 ==> PairAt(frames, e, pair, i).Success?
  }

  /** The flow results of the first `n` reads: one per pair of consecutive
      frames, paired with the later frame. */
  function FlowResults<F>(frames: seq<F>, e: Engine<F>, pair: (Image, Image) -> Result<ColorImage>, n: nat)
    : (rs: seq<(F, ColorImage)>)
    requires n <= |frames| && FlowSucceeds(frames, e, pair, n)
    ensures |rs| == MaxInt(0, n - 1)
    ensures forall j :: 0 <= j < |rs| ==> rs[j] == (frames[j + 1], PairAt(frames, e, pair, j).value)
  {
    seq(MaxInt(0, n - 1), j requires 0 <= j < MaxInt(0, n - 1) => (frames[j + 1], PairAt(frames, e, pair, j).value))
  }

  lemma FlowSucceedsPrefix<F>(frames: seq<F>, e: Engine<F>, pair: (Image, Image) -> Result<ColorImage>, n: nat, m: nat)
    requires m <= n <= |frames| && FlowSucceeds(frames, e, pair, n)
    ensures FlowSucceeds(frames, e, pair, m)
  {
  }

  lemma FlowResultsNext<F>(frames: seq<F>, e: Engine<F>, pair: (Image, Image) -> Result<ColorImage>, k: nat)
    requires k < |frames| && FlowSucceeds(frames, e, pair, k + 1)
    ensures FlowSucceeds(frames, e, pair, k)
    ensures FlowResults(frames, e, pair, k + 1) == FlowResults(frames, e, pair, k) +
      (if k >= 1 then [(frames[k], PairAt(frames, e, pair, k - 1).value)] else [])
  {
    FlowSucceedsPrefix(frames, e, pair, k + 1, k);
  }

  /** The previous grayscale frame after `k` reads. */
  function Previous<F>(frames: seq<F>, e: Engine<F>, k: nat): Option<Image>
    requires k <= |frames|
  {
    if k == 0 then None else Some(e.gray(frames[k - 1]))
  }

  /** The flow loop after `k` reads of a run whose reads and pairs all succeed so far. */
  function FlowLoopAt<F>(frames: seq<F>, e: Engine<F>, pair: (Image, Image) -> Result<ColorImage>,
                         total: int, k: nat, left: nat): Outcome<F>
    requires k <= |frames| && FlowSucceeds(frames, e, pair, k)
  {
    FlowLoop(frames, k, left, Previous(frames, e, k), |FlowResults(frames, e, pair, k)|, total, e, pair)
  }

  /** One iteration of the flow loop with a read that succeeds and a pair, if any, that goes through. */
  lemma FlowLoopUnfold<F>(frames: seq<F>, e: Engine<F>, pair: (Image, Image) -> Result<ColorImage>,
                          total: int, k: nat, left: nat, c: nat)
    requires k < |frames| && 0 < left
    requires k >= 1 ==> PairAt(frames, e, pair, k - 1).Success?
    ensures FlowLoop(frames, k, left, Previous(frames, e, k), c, total, e, pair) ==
      if k >= 1 then
        Prepend(Emit(frames[k], PairAt(frames, e, pair, k - 1).value, c + 1, total),
                FlowLoop(frames, k + 1, left - 1, Previous(frames, e, k + 1), c + 1, total, e, pair))
      else FlowLoop(frames, k + 1, left - 1, Previous(frames, e, k + 1), c, total, e, pair)
  {
  }

  /** One successful read moves the pair it completes, if any, from the
      loop's events into the results so far. */
  lemma FlowLoopStep<F>(frames: seq<F>, e: Engine<F>, pair: (Image, Image) -> Result<ColorImage>,
                        total: int, k: nat, left: nat)
    requires k < |frames| && 0 < left && FlowSucceeds(frames, e, pair, k + 1)
    ensures FlowSucceeds(frames, e, pair, k)
    ensures FlowLoopAt(frames, e, pair, total, k, left).released == FlowLoopAt(frames, e, pair, total, k + 1, left - 1).released
    ensures Report(FlowResults(frames, e, pair, k), 0, total) + FlowLoopAt(frames, e, pair, total, k, left).events ==
            Report(FlowResults(frames, e, pair, k + 1), 0, total) + FlowLoopAt(frames, e, pair, total, k + 1, left - 1).events
  {
    FlowResultsNext(frames, e, pair, k);
    var before := FlowResults(frames, e, pair, k);
    var o := FlowLoopAt(frames, e, pair, total, k, left);
    var rest := FlowLoopAt(frames, e, pair, total, k + 1, left - 1);
    FlowLoopUnfold(frames, e, pair, total, k, left, |before|);
    if k >= 1 {
      var r := (frames[k], PairAt(frames, e, pair, k - 1).value);
      var emitted := Emit(r.0, r.1, |before| + 1, total);
      assert o.events == emitted + rest.events && o.released == rest.released;
      ReportAppend(before, [r], 0, total);
      assert Report([r], |before|, total) == emitted;
    } else {
      assert o == rest;
    }
  }

  /** The flow loop, from any read `k` with the previous frame and count a
      run has there, reports the pairs of the reads it performs. */
  lemma {:induction false} FlowLoopReports<F>(frames: seq<F>, e: Engine<F>, pair: (Image, Image) -> Result<ColorImage>,
                                             total: int, k: nat, left: nat)
    requires k <= |frames| && FlowSucceeds(frames, e, pair, MinInt(k + left, |frames|))
    ensures FlowSucceeds(frames, e, pair, k)
    ensures FlowLoopAt(frames, e, pair, total, k, left).released
    ensures Report(FlowResults(frames, e, pair, k), 0, total) + FlowLoopAt(frames, e, pair, total, k, left).events ==
            Report(FlowResults(frames, e, pair, MinInt(k + left, |frames|)), 0, total)
    decreases left
  {
    FlowSucceedsPrefix(frames, e, pair, MinInt(k + left, |frames|), k);
    if left == 0 || k == |frames| {
      var o := FlowLoopAt(frames, e, pair, total, k, left);
      assert o.events == [] && o.released;
      assert Report(FlowResults(frames, e, pair, k), 0, total) + o.events == Report(FlowResults(frames, e, pair, k), 0, total);
    } else {
      FlowSucceedsPrefix(frames, e, pair, MinInt(k + left, |frames|), k + 1);
      FlowLoopStep(frames, e, pair, total, k, left);
      FlowLoopReports(frames, e, pair, total, k + 1, left - 1);
    }
  }

  /** A flow run whose pairs all go through emits, in order, one result per
      pair of consecutive frames it reads, paired with the later frame and
      followed by its progress. */
  lemma FlowRunReports<F>(frames: seq<F>, p: Params, e: Engine<F>)
    requires p.algorithm != FlowTraceName && p.step != 0
    requires FlowSucceeds(frames, e, PairStep(p, e), MinInt(RangeLen(p.startFrame, p.endFrame + 1, p.step), |frames|))
    ensures var n := MinInt(RangeLen(p.startFrame, p.endFrame + 1, p.step), |frames|);
      var o := Run(frames, p, e);
      && o.events == Report(FlowResults(frames, e, PairStep(p, e), n), 0, TotalPairs(p.startFrame, p.endFrame, p.step))
      && o.released
      && o.attempts == CompletedReads(|frames|, 0, RangeLen(p.startFrame, p.endFrame + 1, p.step))
  {
    var total := TotalPairs(p.startFrame, p.endFrame, p.step);
    var left := RangeLen(p.startFrame, p.endFrame + 1, p.step);
    FlowLoopReports(frames, e, PairStep(p, e), total, 0, left);
    DriveFlow(frames, p, e, false);
    assert FlowResults(frames, e, PairStep(p, e), 0) == [];
  }

  /** With an algorithm name the selector does not know, a flow run fails
      on its first pair, after two reads, and emits nothing else. */
  lemma UnknownAlgorithmFailsFirstPair<F>(frames: seq<F>, p: Params, e: Engine<F>)
    requires p.algorithm != FlowTraceName && !IsFlowAlgorithm(p.algorithm) && p.step != 0
    requires RangeLen(p.startFrame, p.endFrame + 1, p.step) >= 2 && |frames| >= 2
    ensures Run(frames, p, e) == Outcome([Error(UnknownAlgorithm)], 2, false)
  {
    var left := RangeLen(p.startFrame, p.endFrame + 1, p.step);
    var total := TotalPairs(p.startFrame, p.endFrame, p.step);
    var pair := PairStep(p, e);
    assert PairAt(frames, e, pair, 0) == Failure(UnknownAlgorithm);
    assert FlowLoop(frames, 0, left, None, 0, total, e, pair) ==
      FlowLoop(frames, 1, left - 1, Some(e.gray(frames[0])), 0, total, e, pair);
  }

  // ---------------------------------------------------------------------
  // Progress

  /** The percentages among the events, in order. */
  function Progresses<F>(evs: seq<Event<F>>): (ps: seq<int>)
    ensures |ps| <= |evs|
  {
    if |evs| == 0 then []
    else (if evs[0].Progress? then [evs[0].percent] else []) + Progresses(evs[1..])
  }

  lemma {:induction false} ProgressesAppend<F>(a: seq<Event<F>>, b: seq<Event<F>>)
    ensures Progresses(a + b) == Progresses(a) + Progresses(b)
    decreases |a|
  {
    if |a| == 0 {
      assert a + b == b;
    } else {
      assert (a + b)[0] == a[0];
      assert (a + b)[1..] == a[1..] + b;
      ProgressesAppend(a[1..], b);
    }
  }

  /** The percentages after results `done + 1`, ..., `done + count`. */
  function ProgressSeries(done: nat, count: nat, total: int): (ps: seq<int>)
    requires total > 0
    ensures |ps| == count
    ensures forall i :: 0 <= i < count ==> ps[i] == Percent(done + i + 1, total)
  {
    seq(count, i requires 0 <= i < count => Percent(done + i + 1, total))
  }

  /** A report carries one percentage per result when the denominator is
      positive, and none otherwise. */
  lemma {:induction false} ProgressOfReport<F>(rs: seq<(F, ColorImage)>, done: nat, total: int)
    ensures total > 0 ==> Progresses(Report(rs, done, total)) == ProgressSeries(done, |rs|, total)
    ensures total <= 0 ==> Progresses(Report(rs, done, total)) == []
    decreases |rs|
  {
    if |rs| > 0 {
      var head := Emit(rs[0].0, rs[0].1, done + 1, total);
      ProgressesAppend(head, Report(rs[1..], done + 1, total));
      ProgressOfReport(rs[1..], done + 1, total);
      assert Progresses(head) == (if total > 0 then [Percent(done + 1, total)] else []) by {
        assert Progresses(head) == Progresses(head[1..]);
        if total > 0 {
          assert Progresses(head[1..]) == [Percent(done + 1, total)] + Progresses(head[1..][1..]);
          assert head[1..][1..] == [];
        } else {
          assert head[1..] == [];
        }
      }
    }
  }

  lemma PercentMonotone(i: nat, j: nat, total: int)
    requires i <= j && total > 0
    ensures Percent(i, total) <= Percent(j, total)
  {
    DivMonotone(i * 100, j * 100, total);
  }

  /** Counting results against the number there are: percentages never
      fall, never exceed 100 and end at 100. */
  lemma ProgressSeriesComplete(total: int)
    requires total > 0
    ensures var ps := ProgressSeries(0, total, total);
      && (forall i :: 0 <= i < |ps| ==> 0 <= ps[i] <= 100)
      && (forall i, j :: 0 <= i <= j < |ps| ==> ps[i] <= ps[j])
      && ps[|ps| - 1] == 100
  {
    var ps := ProgressSeries(0, total, total);
    forall i | 0 <= i < |ps|
      ensures ps[i] <= 100
    {
      LeDiv(101, (i + 1) * 100, total);
      assert 101 * total > (i + 1) * 100;
    }
    forall i, j | 0 <= i <= j < |ps|
      ensures ps[i] <= ps[j]
    {
      PercentMonotone(i + 1, j + 1, total);
    }
    DivUnique(total * 100, total, 100, 0);
  }

  /** A report with as many results as the denominator carries one
      percentage per result; they stay within [0, 100], never fall and end at 100. */
  lemma ReportReachesHundred<F>(rs: seq<(F, ColorImage)>, total: int)
    requires |rs| == total
    ensures var ps := Progresses(Report(rs, 0, total));
      && |ps| == total
      && (forall i :: 0 <= i < |ps| ==> 0 <= ps[i] <= 100)
      && (forall i, j :: 0 <= i <= j < |ps| ==> ps[i] <= ps[j])
      && (|ps| > 0 ==> ps[|ps| - 1] == 100)
  {
    ProgressOfReport(rs, 0, total);
    if total > 0 {
      ProgressSeriesComplete(total);
    }
  }

  /** In flow mode, with a positive step, the pairs of a run that reads all
      its iterations number exactly `total_pairs`. */
  lemma FlowPairsMatchTotal(start: int, end: int, step: int)
    requires step > 0
    ensures MaxInt(0, RangeLen(start, end + 1, step) - 1) == TotalPairs(start, end, step)
  {
    var m := end - start;
    if m >= 0 {
      DivUnique(m + step, step, m / step + 1, m % step);
    } else {
      LeDiv(0, m, step);
    }
  }

  /** A flow run that reads every iteration's frame, with every pair going
      through and a positive step, reports percentages that never fall,
      stay within [0, 100], and end at 100. */
  lemma FlowProgressReachesHundred<F>(frames: seq<F>, p: Params, e: Engine<F>)
    requires p.algorithm != FlowTraceName && p.step > 0
    requires RangeLen(p.startFrame, p.endFrame + 1, p.step) <= |frames|
    requires FlowSucceeds(frames, e, PairStep(p, e), RangeLen(p.startFrame, p.endFrame + 1, p.step))
    ensures var ps := Progresses(Run(frames, p, e).events);
      && |ps| == TotalPairs(p.startFrame, p.endFrame, p.step)
      && (forall i :: 0 <= i < |ps| ==> 0 <= ps[i] <= 100)
      && (forall i, j :: 0 <= i <= j < |ps| ==> ps[i] <= ps[j])
      && (|ps| > 0 ==> ps[|ps| - 1] == 100)
  {
    var n := RangeLen(p.startFrame, p.endFrame + 1, p.step);
    FlowRunReports(frames, p, e);
    FlowPairsMatchTotal(p.startFrame, p.endFrame, p.step);
    ReportReachesHundred(FlowResults(frames, e, PairStep(p, e), n), TotalPairs(p.startFrame, p.endFrame, p.step));
  }

  /** With step 1, `total_windows` is the number of windows a run emits. */
  lemma TotalWindowsStepOne(start: int, end: int, traceLength: int)
    requires traceLength >= 1
    ensures TotalWindows(start, end, traceLength, 1) == WindowCount(start, end, traceLength, 1)
  {
  }

  /** A corrected trace run that reads every iteration's frame reports
      percentages that never fall, stay within [0, 100], and end at 100,
      for any positive step. */
  lemma CorrectedTraceProgressReachesHundred<F>(frames: seq<F>, p: Params, e: Engine<F>)
    requires p.algorithm == FlowTraceName && 1 <= p.winSize <= p.endFrame - p.startFrame + 1 && p.step > 0
    requires RangeLen(p.startFrame, p.endFrame + 1, p.step) <= |frames| && Uniform(frames, e)
    ensures var ps := Progresses(RunCorrected(frames, p, e).events);
      && |ps| == WindowCount(p.startFrame, p.endFrame, p.winSize, p.step)
      && (forall i :: 0 <= i < |ps| ==> 0 <= ps[i] <= 100)
      && (forall i, j :: 0 <= i <= j < |ps| ==> ps[i] <= ps[j])
      && (|ps| > 0 ==> ps[|ps| - 1] == 100)
  {
    var rs := CorrectedTraceEvents(frames, p, e);
    ReportReachesHundred(rs, WindowCount(p.startFrame, p.endFrame, p.winSize, p.step));
  }

  /** The windows of a corrected trace run that reads every iteration's
      frame, as many as its denominator. */
  lemma CorrectedTraceEvents<F>(frames: seq<F>, p: Params, e: Engine<F>) returns (rs: seq<(F, ColorImage)>)
    requires p.algorithm == FlowTraceName && 1 <= p.winSize <= p.endFrame - p.startFrame + 1 && p.step > 0
    requires RangeLen(p.startFrame, p.endFrame + 1, p.step) <= |frames| && Uniform(frames, e)
    ensures |rs| == WindowCount(p.startFrame, p.endFrame, p.winSize, p.step)
    ensures RunCorrected(frames, p, e).events == Report(rs, 0, WindowCount(p.startFrame, p.endFrame, p.winSize, p.step))
  {
    var n := RangeLen(p.startFrame, p.endFrame + 1, p.step);
    assert MinInt(n, |frames|) == n;
    TraceRunReports(frames, p, e, true);
    rs := TraceResults(frames, e, p.winSize, TraceStep(p), n);
    assert RunCorrected(frames, p, e) == Drive(frames, p, e, true);
  }

  /** As written, with step 2 the trace-mode percentage overshoots: over the
      range 0 to 2 with a trace length of 1 the loop iterates twice (i = 0, 2),
      reads frames 0 and 1 and emits two windows against a `total_windows`
      of 1, so the second percentage is 200. */
  lemma TraceProgressOvershoots<F>(frames: seq<F>, p: Params, e: Engine<F>)
    requires p.algorithm == FlowTraceName && p.startFrame == 0 && p.endFrame == 2
    requires p.step == 2 && p.winSize == 1
    requires |frames| >= 2 && Uniform(frames, e)
    ensures TotalWindows(p.startFrame, p.endFrame, p.winSize, p.step) == 1
    ensures Progresses(Run(frames, p, e).events) == [100, 200]
  {
    assert RangeLen(0, 3, 2) == 2;
    TraceRunReports(frames, p, e, false);
    ProgressOfReport(TraceResults(frames, e, 1, TraceStep(p), 2), 0, 1);
    assert ProgressSeries(0, 2, 1) == [100, 200];
  }

  /** The denominators for frames 0 to 9: six windows of five frames and nine pairs. */
  lemma DenominatorExamples()
    ensures TotalWindows(0, 9, 5, 1) == 6 && WindowCount(0, 9, 5, 1) == 6
    ensures TotalPairs(0, 9, 1) == 9
  {
  }
}
